=== FILE: README.md ===
# URLBlocker — a verified model of the blocking core

URLBlocker is a browser extension that blocks pages by user-entered patterns
(`example.com`, `www.example.com/path`). It holds three stored values: the
pattern list, an enabled flag and a map of pending removals (pattern to
expiry time in milliseconds). A service worker turns the list into
declarativeNetRequest redirect rules. A popup edits the list, and removals
take effect only after a three-hour grace period. A content script is the
in-page fallback when a rule fails to fire.

This project models that core in Dafny:

- `jsstring.dfy` (`JsString`): the ECMAScript string operations the code uses
  (`startsWith`, `endsWith`, `includes`, `trim`) and the two regular
  expression replacements, `/\/+$/` and `/^www\./`.
- `decimal.dfy` (`Decimal`): decimal rendering of a natural number, as a
  template literal renders it.
- `url.dfy` (`Url`): the two parsed URL components the code reads, and the
  `https://` defaulting applied before every parse. The URL parser itself
  (section 4.4 of the WHATWG URL Standard) is a function parameter
  `parse: string -> Option<Url>`, where `None` is the constructor's
  `TypeError`.
- `filter.dfy` (`UrlFilter`): `buildUrlFilter`, which compiles a pattern to
  one of three `urlFilter` shapes, with a decoder that proves the shapes
  never collide.
- `matcher.dfy` (`Matcher`): `urlMatchesRule`, the in-page matcher.
- `blocklist.dfy` (`Blocklist`): the stored state and its transitions, plus
  one tick of the removal checker. Each transition returns the new state
  and its storage writes and resyncs, in order.
- `sync.dfy` (`SyncEngine`): `syncRules` as the rule set it installs, and
  the update request that installs it.
- `background.dfy` (`Background`): the `handleMessage` dispatch and
  `isUrlBlocked`.
- `popup.dfy` (`Popup`): input validation, the add / remove / cancel /
  toggle handlers and the messages they send, the countdown label, and the
  once-a-second timer check.
- `content.dfy` (`ContentScript`): the content script's blocking decision,
  its own copy of the matcher, the guard for the blocked page, and the
  single-page-app poll.

Each operation is modelled as an atomic step. Time is a parameter `now`.
`encodeURIComponent` is a parameter `encode`. A failed call is an input in
three places: `delivered` for the popup's `addUrl` send, a `None` reply for
the popup's initial `getUrls`, and `None` for the content script's storage
read. The popup's other sends are taken to succeed.

### Behaviour as written

The model keeps the following behaviours exactly as the code has them, each stated by a lemma:

- One tick resyncs once per expired pattern, because `removeBlockedUrl` resyncs
  itself. It then resyncs once more at the end. It is not one resync per tick
  (`Blocklist.TickSyncs`).
- `normalizeUrl` trims before it strips slashes, so it is not idempotent:
  text, a space and a slash normalize to the text and the space, and only a
  second pass drops the space; `"a.com /"` becomes `"a.com "`
  (`Blocklist.NormalizeNotIdempotent`).
- `removeBlockedUrl` leaves the pattern's pending entry in place. The
  background's `removeUrl` action runs it directly; the shipped popup and
  content scripts never send that action, but any other extension page may.
  After such a removal, a tick at the old expiry removes the pattern again
  if the user has added it back (`Blocklist.StaleScheduleRemovesReAdded`).
- The stored list keeps the order in which patterns were added, and
  `getUrls` reports that order, so two adds do not commute on the list; they
  do commute on the patterns listed and their counts
  (`Blocklist.AddsOrderMatters`, `Blocklist.AddsCommuteUpToOrder`).
  Removals, schedules and cancels on different patterns commute outright.
- A popup entry typed with one trailing slash is stored without it. Its
  remove button schedules the key as typed, which the store does not list,
  so the expiry removes nothing and the pattern stays blocked
  (`Popup.SlashEntryRemovalMisses`).
- The content script recognises the blocked page by the substring
  `blocked.html` anywhere in the href. A matching page that mentions it,
  for example in its query, is never checked on load
  (`ContentScript.MarkedPageEscapes`).
- `isUrlBlocked` treats an absent flag as disabled. `syncRules` and the
  content script treat it as enabled (`Background.AbsentFlagDisagreement`,
  `ContentScript.AbsentFlagStillBlocks`).
- The compiler strips a leading `www.` but the matcher does not
  (`Matcher.WwwCompilerMatcherDisagree`).
- The matcher's host test is a plain suffix test, not a label-boundary test
  (`Matcher.MatchNotLabelBoundarySafe`).
- A bare host beginning with `http`, such as `httpbin.org`, gets no scheme
  and falls back to the loose filter (`UrlFilter.CompileHttpPrefixedHost`).
- The remove button's tooltip says five hours, but three hours is what is
  scheduled (`Popup.TooltipDisagrees`).

## Model

| member | source | states |
|---|---|---|
| JsString.Trim | web-extension/background.js:261 | The result is a contiguous slice of the input with whitespace-only margins on both sides, and it neither begins nor ends with ECMAScript whitespace |
| JsString.TrimIdempotent | web-extension/popup/popup.js:95 | Trimming an already trimmed string changes nothing |
| JsString.StripTrailingSlashes | web-extension/background.js:261 | Removes the longest run of trailing `/`: the result is a prefix, everything cut off is `/`, and the result does not end in `/` |
| JsString.StripWww | web-extension/background.js:218 | Drops at most one leading `www.`, and the host is unchanged exactly when it does not start with `www.` |
| Decimal.NatToString | web-extension/popup/popup.js:211-212 | The rendering is all digits, has no leading zero unless the number is 0, and denotes the number |
| Decimal.NatToStringInjective | web-extension/popup/popup.js:211-212 | Different numbers render as different text |
| Decimal.CanonicalIsRendering | web-extension/popup/popup.js:211-212 | Every non-empty digit string without a leading zero (other than `0` itself) is the rendering of the number it denotes, so the renderings are exactly these strings |
| Url.WithScheme | web-extension/background.js:210 | The parsed text always starts with `http` and ends with the input; the input is kept unchanged exactly when it starts with `http`, and otherwise gets `https://` in front |
| Url.WithSchemeIdempotent | web-extension/background.js:238-240 | Defaulting twice gives the same text as defaulting once |
| Url.HttpPrefixedHostKeptBare | web-extension/background.js:210 | `httpbin.org` reaches the parser with no scheme added |
| UrlFilter.Compile | web-extension/background.js:208-233 | Loose filter on the raw input exactly when the defaulted pattern fails to parse; otherwise the `www.`-stripped host, path-scoped exactly when the path is neither empty nor `/` |
| UrlFilter.BuildUrlFilter | web-extension/background.js:208-233 | The emitted `urlFilter` text decodes back to exactly the shape the compiler chose |
| UrlFilter.DecodeRender | web-extension/background.js:223-231 | The domain-anchor, path-prefix and loose shapes never produce the same text, so each is recovered from its text |
| UrlFilter.CompileBareDomain | web-extension/background.js:226-228 | `example.com` compiles to the domain anchor on `example.com` |
| UrlFilter.CompileWwwPath | web-extension/background.js:218-223 | `www.example.com/path` compiles to the path prefix `example.com/path` |
| UrlFilter.CompileHttpPrefixedHost | web-extension/background.js:229-231 | A rejected `httpbin.org` compiles to `*httpbin.org*` |
| JsString.StripWwwOnce | web-extension/background.js:218 | Only one `www.` is removed from `www.www.example.com` |
| Matcher.AnyOf | web-extension/background.js:138 | True exactly when some element of the list satisfies the test |
| Matcher.UrlMatchesRule | web-extension/background.js:236-256 | With both sides parsed, a match is exactly a host suffix plus, for a pattern whose path is neither empty nor `/`, a path prefix; when either side fails to parse, the answer is whether the page text contains the pattern text |
| Matcher.MatchCoversSubdomains | web-extension/background.js:244-252 | An unscoped pattern matches its own host and every subdomain of it |
| Matcher.AnchorWithinMatcher | web-extension/background.js:218-252 | Every host a compiled domain anchor reaches (for a pattern without `www.`) is also matched in the page |
| Matcher.MatchNotLabelBoundarySafe | web-extension/background.js:244-246 | `notexample.com` matches `example.com`, although the installed anchor does not reach it |
| Matcher.MatchRespectsPath | web-extension/background.js:248-250 | Example: under the pattern `example.com/foo`, the page `https://example.com/other` is not matched, because its path does not start with `/foo` |
| Matcher.WwwCompilerMatcherDisagree | web-extension/background.js:218-246 | For `www.example.com` the installed filter reaches `api.example.com` but the matcher rejects it |
| Blocklist.NormalizeUrl | web-extension/background.js:259-262 | Null exactly for a non-string or empty input; otherwise the trimmed input without its trailing `/` run, never ending in `/` |
| Blocklist.TrimTrailingSpace | web-extension/background.js:261 | A single trailing whitespace character after non-blank text is the only thing trimmed |
| Blocklist.NormalizeNotIdempotent | web-extension/background.js:259-262 | For any text with clean ends, the text followed by a space and a slash normalizes to the text and the space, which normalizes again to the bare text |
| Blocklist.NormalizeNotIdempotentExample | web-extension/background.js:259-262 | `"a.com /"` normalizes to `"a.com "` and then to `"a.com"` |
| Blocklist.AddBlockedUrl | web-extension/background.js:112-124 | The list changes exactly when the normalized input is non-empty and absent; then it is appended once behind the unchanged old list, written and resynced; otherwise nothing is written; flag and pending are untouched; no duplicate is introduced |
| Blocklist.AddTwice | web-extension/background.js:112-124 | Adding the same input twice leaves the state of adding it once |
| Blocklist.AddBlankIsNoOp | web-extension/background.js:112-114 | Whitespace-only input changes nothing and writes nothing |
| Blocklist.AddSlashesIsNoOp | web-extension/background.js:112-114 | Slash-only input changes nothing and writes nothing |
| Blocklist.Without | web-extension/background.js:128 | The result is a subsequence of the list, so survivors keep their order; each filtered-out value occurs zero times and every other value keeps its count |
| Blocklist.WithoutAppend | web-extension/background.js:128 | Filtering distributes over concatenation, so survivors keep their relative order |
| Blocklist.WithoutUnion | web-extension/background.js:128 | Filtering by one set and then another is filtering by their union |
| Blocklist.RemoveBlockedUrl | web-extension/background.js:126-131 | Exactly the entries equal to the pattern go, the others keep their order and counts, pending and flag are untouched, and the list is written and resynced even when nothing was removed |
| Blocklist.RemoveKeepsOrder | web-extension/background.js:126-131 | Removing a pattern listed once between `a` and `b` leaves exactly `a + b` |
| Blocklist.RemoveLeavesPending | web-extension/background.js:126-131 | A removed pattern's pending entry survives, so a pending key is no longer listed |
| Blocklist.ScheduleRemoval | web-extension/background.js:142-146 | Sets or overwrites one pending entry, leaves every other key and the list and flag alone, and does not resync |
| Blocklist.CancelRemovalSchedule | web-extension/background.js:149-153 | Deletes one pending key and nothing else |
| Blocklist.ScheduleThenCancel | web-extension/background.js:142-153 | Schedule then cancel leaves the pattern without a pending entry and everything else as before the schedule |
| Blocklist.SetEnabled | web-extension/background.js:99-102 | Stores the flag, keeps list and pending, writes and resyncs |
| Blocklist.ExpireResult | web-extension/background.js:39-55 | After a tick, exactly the keys due at `now` have left both the pending map and the list; the surviving list entries keep their order and counts, and every other pending entry is as before |
| Blocklist.ExpireLoop | web-extension/background.js:43-49 | The loop over the pending map ends with exactly the due keys removed from the list and the map, and one removal's writes per due key |
| Blocklist.ExpireTick | web-extension/background.js:39-55 | The loop over the pending map reaches the reference result; it writes nothing when nothing is due, and otherwise does one removal per due key, then one map write and one resync |
| Blocklist.TickSyncs | web-extension/background.js:43-55 | A tick that expires `n` entries resyncs `n + 1` times |
| Blocklist.TickIdempotent | web-extension/background.js:39-55 | A second tick at the same time finds nothing due and changes nothing |
| Blocklist.AddsCommuteUpToOrder | web-extension/background.js:112-124 | Two adds in either order list the same patterns with the same counts and leave pending and flag alike |
| Blocklist.AddsOrderMatters | web-extension/background.js:112-124 | Two new, already normalized patterns end up listed in the order they were added, so the two orders give different lists |
| Blocklist.AddRemoveCommute | web-extension/background.js:112-131 | Adding one pattern and removing a different one commute, list order included |
| Blocklist.RemovesCommute | web-extension/background.js:126-131 | Two removals commute |
| Blocklist.ScheduleCancelCommute | web-extension/background.js:142-153 | Scheduling one pattern and cancelling another commute |
| Blocklist.SchedulesCommute | web-extension/background.js:142-146 | Schedules of two different patterns commute |
| Blocklist.CancelsCommute | web-extension/background.js:149-153 | Two cancels commute |
| Blocklist.AddCommutesWithPending | web-extension/background.js:112-153 | An add commutes with any schedule or cancel |
| Blocklist.RemoveCommutesWithPending | web-extension/background.js:126-153 | A removal commutes with any schedule or cancel, even of the same pattern |
| Blocklist.AddKeepsPendingListed | web-extension/background.js:112-124 | Adding keeps every pending key listed |
| Blocklist.CancelKeepsPendingListed | web-extension/background.js:149-153 | Cancelling keeps every pending key listed |
| Blocklist.TickKeepsInvariants | web-extension/background.js:39-55 | A tick keeps the list free of duplicates and keeps every pending key listed |
| Blocklist.StaleScheduleRemovesReAdded | web-extension/background.js:43-47 | Example: schedule `a.com` for time 100, remove it, add it back, and the tick at time 100 removes it again |
| SyncEngine.CompileRules | web-extension/background.js:178-191 | One rule per pattern, in list order, rule `i` built from pattern `i` with id `i + 1` |
| SyncEngine.SyncRules | web-extension/background.js:156-199 | No request exactly when nothing is installed and the list is disabled or empty; otherwise every existing id is removed and exactly the desired rules are added |
| SyncEngine.SyncReplaces | web-extension/background.js:162-198 | Whatever was installed before, a sync leaves exactly the desired rules installed |
| SyncEngine.DesiredRulesShape | web-extension/background.js:166-191 | No rules exactly when disabled or empty; otherwise one per pattern with id `i + 1`, the compiled filter of pattern `i`, and distinct ids |
| SyncEngine.ToggleRestores | web-extension/background.js:160-175 | A `false` flag installs nothing; an absent flag installs what `true` installs; the pending map does not matter |
| SyncEngine.DesiredRulesDeterministic | web-extension/background.js:158-191 | The rule set depends only on the list and whether syncing is enabled |
| Background.IsUrlBlocked | web-extension/background.js:133-139 | True exactly when the flag is stored as `true` and some stored pattern matches the URL |
| Background.HandleMessage | web-extension/background.js:73-109 | Each mutating action runs its transition, with exactly that transition's writes and resyncs, and answers success; `getUrls` reports the list, the flag as "anything but false" and the pending map; `isBlocked` answers the query; an unknown action is an error; queries and errors change and write nothing |
| Background.ChangesEndWithSync | web-extension/background.js:73-109 | Any handled request that changes the list or flag ends with a resync; one that changes neither and is not `setEnabled` or `removeUrl` does not resync |
| Background.AbsentFlagDisagreement | web-extension/background.js:133-160 | With no stored flag, `isUrlBlocked` answers false while the rules are still installed |
| Popup.Init | web-extension/popup/popup.js:20-33 | A failed request loads nothing; a state report loads as is; any other reply loads an empty, enabled list |
| Popup.InitMirrorsStore | web-extension/popup/popup.js:20-33 | After loading, the popup shows the stored list and pending map, and shows the list as enabled unless the flag is stored as `false` |
| Popup.IsValidUrl | web-extension/popup/popup.js:181-192 | Valid exactly when the input is non-empty, parses after defaulting, and its host has a dot; a valid entry never compiles to the loose filter |
| Popup.AddUrl | web-extension/popup/popup.js:94-125 | Rejects in order: empty after trim, invalid, already listed as typed; otherwise sends `addUrl` with the trimmed text, which joins the local list only if the message was delivered |
| Popup.AddedEntryStoredAsTyped | web-extension/popup/popup.js:95-117 | An accepted entry is trimmed; if it does not end in `/`, the background stores exactly the text the popup lists |
| Popup.AddedSlashEntryDiverges | web-extension/popup/popup.js:95-117 | An accepted entry ending in a single `/` is listed with the slash by the popup but stored without it by the background |
| Popup.RemoveUrl | web-extension/popup/popup.js:128-144 | Records an expiry exactly 10800000 ms after `now` locally and sends the same expiry; nothing else changes |
| Popup.RemoveUrlAgrees | web-extension/popup/popup.js:128-137 | The background's pending entry equals the popup's, and the pattern stays listed |
| Popup.SlashEntryRemovalMisses | web-extension/popup/popup.js:128-137 | Removing an entry typed with one trailing slash schedules the typed key, while the stored pattern without the slash has no schedule and survives every later tick |
| Popup.TooltipDisagrees | web-extension/popup/popup.js:70 | The five hours the tooltip announces are not the three hours scheduled |
| Popup.CancelRemoval | web-extension/popup/popup.js:147-161 | Deletes only the pattern's local pending entry and sends `cancelRemoval` |
| Popup.RemoveThenCancel | web-extension/popup/popup.js:128-161 | Remove then undo leaves no pending entry on either side and the list unchanged |
| Popup.ToggleEnabled | web-extension/popup/popup.js:164-173 | Shows the new position at once and sends it as the stored flag |
| Popup.ToggleAgrees | web-extension/popup/popup.js:164-173 | After the toggle, the background installs rules exactly when the popup shows the list as enabled, and a reload shows the same position |
| Popup.Countdown | web-extension/popup/popup.js:205-209 | For a positive duration, minutes are below 60 and the duration lies within the minute that hours and minutes name |
| Popup.FormatTimeRemaining | web-extension/popup/popup.js:204-213 | The due text when the expiry has passed; otherwise a label that reads back as the countdown of the remaining time, never the due text |
| Popup.DecodeLabelRoundTrip | web-extension/popup/popup.js:211-212 | Every `{h}h {m}m` or `{m}m` label reads back as the hours and minutes it was made from |
| Popup.DecodeLabelCanonical | web-extension/popup/popup.js:211-212 | Only labels read back: a text that decodes to hours and minutes is exactly their label, so it has no leading zeros and no zero hour part |
| Popup.DueTextIsNoLabel | web-extension/popup/popup.js:206 | The due text cannot be mistaken for a countdown |
| Popup.Labels | web-extension/popup/popup.js:234-240 | When nothing is due, exactly the listed patterns with a non-zero expiry get a label, and each label reads back as their live countdown, which pins its text |
| Popup.TimerTick | web-extension/popup/popup.js:219-242 | Reloads exactly when some pending entry is due; otherwise refreshes the labels |
| ContentScript.ContentMatchesRule | web-extension/content.js:79-99 | The early-return copy matches by host suffix and, for a path other than empty or `/`, path prefix when both sides parse, and by substring otherwise |
| ContentScript.ContentMatcherAgrees | web-extension/content.js:79-99 | The script's copy of the matcher agrees with the background's on every input |
| ContentScript.CheckAndBlock | web-extension/content.js:12-36 | A failed read lets the page through; otherwise the page is blocked exactly when the flag is not stored as `false` and some pattern matches the href, and the href is what it reports |
| ContentScript.OnLoad | web-extension/content.js:8-10 | Skips exactly the pages whose href contains `blocked.html`; otherwise runs one check |
| ContentScript.SkipsRedirectTarget | web-extension/content.js:8 | The script never runs on a redirect target, an origin followed by the rules' `/blocked/blocked.html?url=` path and any query |
| ContentScript.MarkedPageEscapes | web-extension/content.js:8 | A page whose query contains `blocked.html` is matched by a stored pattern and would be blocked, yet the load-time check skips it |
| ContentScript.Poll | web-extension/content.js:71-76 | Re-checks exactly when the href changed, and remembers the new href |
| ContentScript.PollSettles | web-extension/content.js:71-76 | A second poll on an unchanged href does nothing |
| ContentScript.AgreesWithIsUrlBlocked | web-extension/content.js:14-26 | With the flag stored as `true`, the script blocks exactly what `isUrlBlocked` reports as blocked |
| ContentScript.AbsentFlagStillBlocks | web-extension/content.js:18 | With no stored flag, the script blocks a matching page that `isUrlBlocked` reports as not blocked |
| ContentScript.BlocksOnlyWithRules | web-extension/content.js:18-26 | The script blocks only while rules are installed for the same stored state |

## Left out

- The URL parser and `encodeURIComponent` are parameters, not implementations. Facts about particular URLs are stated under assumptions about what the parser returns for them.
- Storage, runtime messaging, `tabs.update` and the declarativeNetRequest API are not calls in the model. They appear as effects, inputs and a rule-set result. `ApplyUpdate` is a model of what `updateDynamicRules` does.
- The `navigateToBlocked` listener (web-extension/background.js:60-71) is left out. It only builds the redirect URL and calls `tabs.update`.
- First-install defaults (web-extension/background.js:17-30) are left out. They are a one-time storage initialisation.
- Timers and async interleaving are left out: `setInterval` cadence and overlapping ticks. So is the tick writing back a stale copy of the pending map while a handler runs, and `Date.now()` being read afresh per entry. A tick is one atomic step at a fixed `now`.
- DOM work is left out: rendering, `window.stop`, the fallback page HTML, error texts and logging.
- Blocklist.SetEnabled: a `setEnabled` request without a value is modelled as clearing the stored flag. What the storage API does with an `undefined` value is not modelled.
- JavaScript coercions are not modelled. Payloads other than `addUrl`'s are strings and integers. A stored value of the wrong type, and timestamps that are not integers or are NaN, are also outside the model.
- `web-extension/images/generate_icons.py` is a build-time icon generator with no bearing on blocking.
- The Safari scripts under `URLBlocker/URLBlocker Extension/Resources` are not part of this model. Its `content.js` is a different content script: it asks the background's `isBlocked`, so an absent flag does not block there, and it has no single-page-app poll. `blocked/blocked.js` is the blocked page's own display script.
- Popup.TimerTick: the refresh relabels the listed patterns that have a pending entry. After a successful send that is what the rendered list shows. The DOM walk that finds their timer elements is not modelled.
- Popup.RemoveUrl, Popup.CancelRemoval, Popup.ToggleEnabled, Popup.TimerTick: a failed send is not modelled. The code changes the popup's local pending map or flag before sending and keeps that change when the send throws (web-extension/popup/popup.js:130, 149, 165). The error text and the skipped re-render (web-extension/popup/popup.js:139, 156) are not modelled either. So after a failed `scheduleRemoval` the screen shows no timer for the entry while `TimerTick` labels it. After a failed `cancelRemoval` the old timer stays on screen while `TimerTick` drops its label.
- Failures of storage writes and of `updateDynamicRules` are not modelled; every effect is taken to succeed. In the code `syncRules` logs and rethrows (web-extension/background.js:201-204). A rejected handler then never answers its message (web-extension/background.js:69). A tick that fails stops mid-loop with the pending map unwritten (web-extension/background.js:46-53). `SyncEngine.SyncReplaces` assumes the host accepts the update.
- ContentScript.CheckAndBlock: the `navigateToBlocked` request and its fallback page are one outcome, `Block`. Whether the background answered is not distinguished.

=== FILE: background.dfy ===
/** The message handler of web-extension/background.js (`handleMessage`) and
    the `isUrlBlocked` query it answers. Each request is handled atomically
    against the stored state. */
module Background {
  import opened Wrappers
  import opened Url
  import opened Matcher
  import Blocklist
  import SyncEngine

  /** A request, by its `action` tag. `Unknown` is any other tag. */
  datatype Message =
    | AddUrl(input: Blocklist.JsValue)
    | RemoveUrl(url: string)
    | ScheduleRemoval(url: string, removalTime: int)
    | CancelRemoval(url: string)
    | GetUrls
    | SetEnabled(enabled: Option<bool>)
    | IsBlocked(url: string)
    | Unknown(action: string)

  /** What `handleMessage` resolves to. */
  datatype Response =
    | Success
    | Urls(urls: seq<string>, enabled: bool, pendingRemovals: map<string, int>)
    | Blocked(blocked: bool)
    | Error(message: string)

  datatype Reply = Reply(state: Blocklist.State, response: Response, effects: seq<Blocklist.Effect>)

  /** `isUrlBlocked(url)`: false unless the stored flag is truthy, which an
      absent flag is not; otherwise true exactly when some stored pattern
      matches. */
  function IsUrlBlocked(st: Blocklist.State, url: string, parse: Parser): (r: bool)
    ensures r <==> st.enabled == Some(true)
                   && exists i :: 0 <= i < |st.urls| && UrlMatchesRule(parse, url, st.urls[i])
  {
    if st.enabled != Some(true) then false
    else AnyOf(st.urls, (p: string) => UrlMatchesRule(parse, url, p))
  }

  /** `handleMessage(message)`: each mutating action runs its transition,
      with its writes and resync, and answers success; `getUrls` reports the state with the flag read as
      "anything but false"; `isBlocked` answers the query; an unknown tag is
      an error. Queries and errors leave the state alone and write nothing. */
  function HandleMessage(st: Blocklist.State, msg: Message, parse: Parser): (r: Reply)
    ensures msg.GetUrls? || msg.IsBlocked? || msg.Unknown? ==> r.state == st && r.effects == []
    ensures msg.GetUrls? ==>
              r.response == Urls(st.urls, SyncEngine.SyncEnabled(st), st.pending)
    ensures msg.IsBlocked? ==> r.response == Blocked(IsUrlBlocked(st, msg.url, parse))
    ensures msg.Unknown? ==> r.response == Error("Unknown action")
    ensures !(msg.GetUrls? || msg.IsBlocked? || msg.Unknown?) ==> r.response == Success
    ensures msg.AddUrl? ==> Blocklist.Step(r.state, r.effects) == Blocklist.AddBlockedUrl(st, msg.input)
    ensures msg.RemoveUrl? ==> Blocklist.Step(r.state, r.effects) == Blocklist.RemoveBlockedUrl(st, msg.url)
    ensures msg.ScheduleRemoval? ==>
              Blocklist.Step(r.state, r.effects) == Blocklist.ScheduleRemoval(st, msg.url, msg.removalTime)
    ensures msg.CancelRemoval? ==>
              Blocklist.Step(r.state, r.effects) == Blocklist.CancelRemovalSchedule(st, msg.url)
    ensures msg.SetEnabled? ==> Blocklist.Step(r.state, r.effects) == Blocklist.SetEnabled(st, msg.enabled)
  {
    match msg
    case AddUrl(input) =>
      var s := Blocklist.AddBlockedUrl(st, input);
      Reply(s.state, Success, s.effects)
    case RemoveUrl(url) =>
      var s := Blocklist.RemoveBlockedUrl(st, url);
      Reply(s.state, Success, s.effects)
    case ScheduleRemoval(url, removalTime) =>
      var s := Blocklist.ScheduleRemoval(st, url, removalTime);
      Reply(s.state, Success, s.effects)
    case CancelRemoval(url) =>
      var s := Blocklist.CancelRemovalSchedule(st, url);
      Reply(s.state, Success, s.effects)
    case GetUrls =>
      Reply(st, Urls(st.urls, st.enabled != Some(false), st.pending), [])
    case SetEnabled(enabled) =>
      var s := Blocklist.SetEnabled(st, enabled);
      Reply(s.state, Success, s.effects)
    case IsBlocked(url) =>
      Reply(st, Blocked(IsUrlBlocked(st, url, parse)), [])
    case Unknown(_) =>
      Reply(st, Error("Unknown action"), [])
  }

  /** Every handled request that changes the list or the flag ends with a
      resync, so the rules installed afterwards are those of the new state;
      a change of the pending map alone does not resync. */
  lemma ChangesEndWithSync(st: Blocklist.State, msg: Message, parse: Parser)
    ensures var r := HandleMessage(st, msg, parse);
            (r.state.urls != st.urls || r.state.enabled != st.enabled) ==>
              r.effects != [] && r.effects[|r.effects| - 1] == Blocklist.SyncRules
    ensures var r := HandleMessage(st, msg, parse);
            r.state.urls == st.urls && r.state.enabled == st.enabled && !msg.SetEnabled? && !msg.RemoveUrl? ==>
              Blocklist.SyncRules !in r.effects
  {
  }

  /** With no stored flag, `isUrlBlocked` answers false although `syncRules`
      treats the list as enabled and installs its rules. */
  lemma AbsentFlagDisagreement(st: Blocklist.State, url: string, parse: Parser)
    requires st.enabled == None
    ensures !IsUrlBlocked(st, url, parse)
    ensures SyncEngine.SyncEnabled(st)
  {
  }
}

=== FILE: blocklist.dfy ===
/** The persisted blocklist of web-extension/background.js and its
    transitions: `normalizeUrl`, `addBlockedUrl`, `removeBlockedUrl`,
    `scheduleRemoval`, `cancelRemovalSchedule`, the `setEnabled` write, and one
    tick of the removal checker. Each transition is atomic and returns the new
    state with the storage writes and rule resyncs it performs, in order. */
module Blocklist {
  import opened Wrappers
  import opened JsString

  /** A message payload as JavaScript hands it over: a string, or any other
      value (`undefined`, a number, an object). */
  datatype JsValue = Str(s: string) | NonString

  /** The three storage entries: `blockedUrls` (an absent entry reads as the
      empty list), `blockingEnabled` (None when absent), `pendingRemovals`
      (pattern to expiry in milliseconds; absent reads as empty). */
  datatype State = State(urls: seq<string>, enabled: Option<bool>, pending: map<string, int>)

  /** Side effects of a transition: one storage write per entry, and one call
      of `syncRules`, which recomputes the installed rules from the stored
      state at that point. */
  datatype Effect = WriteUrls | WriteEnabled | WritePending | SyncRules

  datatype Step = Step(state: State, effects: seq<Effect>)

  /** No pattern occurs twice. */
  ghost predicate NoDuplicates(s: seq<string>) {
    forall x :: multiset(s)[x] <= 1
  }

  /** `normalizeUrl(input)`: null for a non-string or the empty string;
      otherwise the trimmed input with its whole run of trailing `/` removed. */
  function NormalizeUrl(input: JsValue): (r: Option<string>)
    ensures r.None? <==> input.NonString? || input.s == []
    ensures r.Some? ==>
              var t := Trim(input.s);
              && StartsWith(t, r.value)
              && (forall i :: |r.value| <= i < |t| ==> t[i] == '/')
              && (r.value == [] || r.value[|r.value| - 1] != '/')
  {
    match input
    case NonString => None
    case Str(s) => if s == [] then None else Some(StripTrailingSlashes(Trim(s)))
  }

  /** `addBlockedUrl(url)`. Nothing happens when the normalized input is null
      or empty, or already listed; otherwise it is appended, the list written
      and the rules resynced. */
  function AddBlockedUrl(st: State, input: JsValue): (r: Step)
    ensures r.state.enabled == st.enabled && r.state.pending == st.pending
    ensures st.urls <= r.state.urls && |r.state.urls| <= |st.urls| + 1
    ensures r.state.urls != st.urls <==>
              var c := NormalizeUrl(input);
              c.Some? && c.value != [] && c.value !in st.urls
    ensures r.state.urls != st.urls ==> r.state.urls[|st.urls|] == NormalizeUrl(input).value
    ensures r.effects == (if r.state == st then [] else [WriteUrls, SyncRules])
    ensures NoDuplicates(st.urls) ==> NoDuplicates(r.state.urls)
  {
    match NormalizeUrl(input)
    case None => Step(st, [])
    case Some(clean) =>
      if clean == [] || clean in st.urls then Step(st, [])
      else
        assert multiset(st.urls + [clean]) == multiset(st.urls) + multiset{clean};
        Step(st.(urls := st.urls + [clean]), [WriteUrls, SyncRules])
  }

  /** `r` is `s` with some elements left out and the others in their
      original relative order. */
  predicate IsSubsequence(r: seq<string>, s: seq<string>)
    decreases |s|
  {
    if r == [] then true
    else if s == [] then false
    else (r[0] == s[0] && IsSubsequence(r[1..], s[1..])) || IsSubsequence(r, s[1..])
  }

  /** The list with every element of `e` filtered out: the survivors keep
      their order and their number of occurrences. */
  function Without(s: seq<string>, e: set<string>): (r: seq<string>)
    ensures IsSubsequence(r, s)
    ensures forall x {:trigger multiset(r)[x]} :: multiset(r)[x] == if x in e then 0 else multiset(s)[x]
    ensures forall x :: x in r <==> x in s && x !in e
  {
    if s == [] then []
    else
      assert s == [s[0]] + s[1..];
      var rest := Without(s[1..], e);
      if s[0] in e then rest
      else
        var r := [s[0]] + rest;
        assert multiset(r) == multiset{s[0]} + multiset(rest);
        assert r[0] == s[0] && r[1..] == rest;
        r
  }

  /** Filtering distributes over concatenation, so the surviving elements
      keep their relative order. */
  lemma {:induction false} WithoutAppend(a: seq<string>, b: seq<string>, e: set<string>)
    ensures Without(a + b, e) == Without(a, e) + Without(b, e)
  {
    if a == [] {
      assert a + b == b;
    } else {
      assert (a + b)[0] == a[0];
      assert (a + b)[1..] == a[1..] + b;
      WithoutAppend(a[1..], b, e);
    }
  }

  /** Filtering twice is filtering once by the union. */
  lemma {:induction false} WithoutUnion(s: seq<string>, e1: set<string>, e2: set<string>)
    ensures Without(Without(s, e1), e2) == Without(s, e1 + e2)
  {
    if s != [] {
      WithoutUnion(s[1..], e1, e2);
    }
  }

  /** Filtering by a set none of the elements are in changes nothing. */
  lemma {:induction false} WithoutNothing(s: seq<string>, e: set<string>)
    requires forall x :: x in s ==> x !in e
    ensures Without(s, e) == s
  {
    if s != [] {
      assert s == [s[0]] + s[1..];
      WithoutNothing(s[1..], e);
    }
  }

  /** `removeBlockedUrl(url)`: exactly the entries equal to `url` go, the rest
      keep their order; the pending map is not touched; the list is written
      and the rules resynced even when nothing was removed. */
  function RemoveBlockedUrl(st: State, url: string): (r: Step)
    ensures IsSubsequence(r.state.urls, st.urls)
    ensures forall x :: x in r.state.urls <==> x in st.urls && x != url
    ensures forall x :: x != url ==> multiset(r.state.urls)[x] == multiset(st.urls)[x]
    ensures r.state.enabled == st.enabled && r.state.pending == st.pending
    ensures r.effects == [WriteUrls, SyncRules]
    ensures NoDuplicates(st.urls) ==> NoDuplicates(r.state.urls)
  {
    Step(st.(urls := Without(st.urls, {url})), [WriteUrls, SyncRules])
  }

  /** Removing a pattern listed once closes the gap it leaves: the entries
      before and after it stay in place. */
  lemma RemoveKeepsOrder(st: State, url: string, a: seq<string>, b: seq<string>)
    requires st.urls == a + [url] + b && url !in a && url !in b
    ensures RemoveBlockedUrl(st, url).state.urls == a + b
  {
    var e := {url};
    WithoutAppend(a + [url], b, e);
    WithoutAppend(a, [url], e);
    WithoutNothing(a, e);
    WithoutNothing(b, e);
    assert Without([url], e) == [] by {
      assert [url][0] == url && [url][1..] == [];
    }
    assert Without(a + [url], e) == a;
  }

  /** `scheduleRemoval(url, removalTime)`: sets or overwrites one pending
      entry and nothing else; the pattern need not be listed, and there is
      no resync. */
  function ScheduleRemoval(st: State, url: string, removalTime: int): (r: Step)
    ensures url in r.state.pending && r.state.pending[url] == removalTime
    ensures forall k :: k != url ==>
              (k in r.state.pending <==> k in st.pending)
              && (k in st.pending ==> r.state.pending[k] == st.pending[k])
    ensures r.state.urls == st.urls && r.state.enabled == st.enabled
    ensures r.effects == [WritePending]
  {
    Step(st.(pending := st.pending[url := removalTime]), [WritePending])
  }

  /** `cancelRemovalSchedule(url)`: deletes one pending entry, if present. */
  function CancelRemovalSchedule(st: State, url: string): (r: Step)
    ensures url !in r.state.pending
    ensures forall k :: k != url ==>
              (k in r.state.pending <==> k in st.pending)
              && (k in st.pending ==> r.state.pending[k] == st.pending[k])
    ensures r.state.urls == st.urls && r.state.enabled == st.enabled
    ensures r.effects == [WritePending]
  {
    Step(st.(pending := st.pending - {url}), [WritePending])
  }

  /** The `setEnabled` action: stores the flag and resyncs. */
  function SetEnabled(st: State, enabled: Option<bool>): (r: Step)
    ensures r.state.enabled == enabled
    ensures r.state.urls == st.urls && r.state.pending == st.pending
    ensures r.effects == [WriteEnabled, SyncRules]
  {
    Step(st.(enabled := enabled), [WriteEnabled, SyncRules])
  }

  /** Scheduling and then cancelling the same pattern leaves it without a
      pending entry and everything else as it was. */
  lemma ScheduleThenCancel(st: State, url: string, t: int)
    ensures CancelRemovalSchedule(ScheduleRemoval(st, url, t).state, url).state
            == st.(pending := st.pending - {url})
  {
  }

  /** Adding the same input twice is the same as adding it once. */
  lemma AddTwice(st: State, input: JsValue)
    ensures var once := AddBlockedUrl(st, input).state;
            AddBlockedUrl(once, input).state == once
  {
  }

  // ---------------------------------------------------------------------
  // Order of operations

  /** Two adds in either order list the same patterns, each as often, and
      leave the same pending map and flag. */
  lemma AddsCommuteUpToOrder(st: State, x: JsValue, y: JsValue)
    ensures var xy := AddBlockedUrl(AddBlockedUrl(st, x).state, y).state;
            var yx := AddBlockedUrl(AddBlockedUrl(st, y).state, x).state;
            && multiset(xy.urls) == multiset(yx.urls)
            && xy.pending == yx.pending && xy.enabled == yx.enabled
  {
  }

  /** The list itself depends on the order: two new patterns are listed in
      the order they were added, and `getUrls` reports that order. */
  lemma AddsOrderMatters(st: State, a: string, b: string)
    requires a != [] && !IsJsSpace(a[0]) && !IsJsSpace(a[|a| - 1]) && a[|a| - 1] != '/'
    requires b != [] && !IsJsSpace(b[0]) && !IsJsSpace(b[|b| - 1]) && b[|b| - 1] != '/'
    requires a != b && a !in st.urls && b !in st.urls
    ensures AddBlockedUrl(AddBlockedUrl(st, Str(a)).state, Str(b)).state.urls == st.urls + [a, b]
    ensures AddBlockedUrl(AddBlockedUrl(st, Str(b)).state, Str(a)).state.urls == st.urls + [b, a]
    ensures st.urls + [a, b] != st.urls + [b, a]
  {
    NormalizeClean(a);
    NormalizeClean(b);
    assert (st.urls + [a, b])[|st.urls|] == a;
    assert (st.urls + [b, a])[|st.urls|] == b;
  }

  /** Adding one pattern and removing another commute, list order included.
      Adding and removing the same pattern do not: the last one wins. */
  lemma AddRemoveCommute(st: State, x: JsValue, u: string)
    ensures NormalizeUrl(x) != Some(u) ==>
              RemoveBlockedUrl(AddBlockedUrl(st, x).state, u).state
              == AddBlockedUrl(RemoveBlockedUrl(st, u).state, x).state
  {
    var c := NormalizeUrl(x);
    if c.Some? && c.value != [] && c.value !in st.urls && c.value != u {
      WithoutAppend(st.urls, [c.value], {u});
      WithoutNothing([c.value], {u});
    }
  }

  /** Two removals commute. */
  lemma RemovesCommute(st: State, u: string, v: string)
    ensures RemoveBlockedUrl(RemoveBlockedUrl(st, u).state, v).state
            == RemoveBlockedUrl(RemoveBlockedUrl(st, v).state, u).state
  {
    WithoutUnion(st.urls, {u}, {v});
    WithoutUnion(st.urls, {v}, {u});
    assert {u} + {v} == {v} + {u};
  }

  /** Scheduling one pattern and cancelling another commute. */
  lemma ScheduleCancelCommute(st: State, u: string, t: int, v: string)
    requires u != v
    ensures CancelRemovalSchedule(ScheduleRemoval(st, u, t).state, v).state
            == ScheduleRemoval(CancelRemovalSchedule(st, v).state, u, t).state
  {
    assert st.pending[u := t] - {v} == (st.pending - {v})[u := t];
  }

  /** Two schedules of different patterns commute. */
  lemma SchedulesCommute(st: State, u: string, t: int, v: string, w: int)
    requires u != v
    ensures ScheduleRemoval(ScheduleRemoval(st, u, t).state, v, w).state
            == ScheduleRemoval(ScheduleRemoval(st, v, w).state, u, t).state
  {
    assert st.pending[u := t][v := w] == st.pending[v := w][u := t];
  }

  /** Two cancels commute. */
  lemma CancelsCommute(st: State, u: string, v: string)
    ensures CancelRemovalSchedule(CancelRemovalSchedule(st, u).state, v).state
            == CancelRemovalSchedule(CancelRemovalSchedule(st, v).state, u).state
  {
    assert st.pending - {u} - {v} == st.pending - {v} - {u};
  }

  /** An add commutes with any schedule or cancel: they touch different
      stored values. */
  lemma AddCommutesWithPending(st: State, x: JsValue, u: string, t: int)
    ensures ScheduleRemoval(AddBlockedUrl(st, x).state, u, t).state
            == AddBlockedUrl(ScheduleRemoval(st, u, t).state, x).state
    ensures CancelRemovalSchedule(AddBlockedUrl(st, x).state, u).state
            == AddBlockedUrl(CancelRemovalSchedule(st, u).state, x).state
  {
  }

  /** A removal commutes with any schedule or cancel, even of the same
      pattern. */
  lemma RemoveCommutesWithPending(st: State, v: string, u: string, t: int)
    ensures ScheduleRemoval(RemoveBlockedUrl(st, v).state, u, t).state
            == RemoveBlockedUrl(ScheduleRemoval(st, u, t).state, v).state
    ensures CancelRemovalSchedule(RemoveBlockedUrl(st, v).state, u).state
            == RemoveBlockedUrl(CancelRemovalSchedule(st, u).state, v).state
  {
  }

  // ---------------------------------------------------------------------
  // The removal checker

  /** Keys whose expiry is at or before `now`. */
  function Expired(pending: map<string, int>, now: int): (e: set<string>)
    ensures forall k :: k in e <==> k in pending && pending[k] <= now
  {
    set k | k in pending && pending[k] <= now
  }

  /** The state after one tick at `now`: every expired key leaves both the
      list and the pending map; every other entry stays as it was. */
  function ExpireResult(st: State, now: int): (r: State)
    ensures forall k :: k in r.pending <==> k in st.pending && st.pending[k] > now
    ensures forall k :: k in r.pending ==> r.pending[k] == st.pending[k]
    ensures forall u :: u in r.urls <==> u in st.urls && !(u in st.pending && st.pending[u] <= now)
    ensures IsSubsequence(r.urls, st.urls)
    ensures forall u :: !(u in st.pending && st.pending[u] <= now) ==>
              multiset(r.urls)[u] == multiset(st.urls)[u]
    ensures r.enabled == st.enabled
  {
    State(Without(st.urls, Expired(st.pending, now)),
          st.enabled,
          map k | k in st.pending && st.pending[k] > now :: st.pending[k])
  }

  lemma PendingDrop(pending: map<string, int>, removed: set<string>, url: string)
    ensures pending - removed - {url} == pending - (removed + {url})
  {
  }

  /** Visiting one remaining key of a tick: an expired key joins the
      removed set, which then accounts for every expired key already
      visited, and the list, the map and the effects are those of the grown
      set; a key not yet due changes nothing. */
  lemma ExpireStep(st: State, now: int, remaining: set<string>, removed: set<string>, url: string)
    requires url in remaining && remaining <= st.pending.Keys
    requires removed == Expired(st.pending, now) - remaining
    ensures st.pending[url] > now ==> removed == Expired(st.pending, now) - (remaining - {url})
    ensures st.pending[url] <= now ==>
              && removed + {url} == Expired(st.pending, now) - (remaining - {url})
              && Without(Without(st.urls, removed), {url}) == Without(st.urls, removed + {url})
              && st.pending - removed - {url} == st.pending - (removed + {url})
              && RemovalEffects(|removed|) + [WriteUrls, SyncRules] == RemovalEffects(|removed + {url}|)
  {
    if st.pending[url] <= now {
      assert url !in removed;
      assert |removed + {url}| == |removed| + 1;
      WithoutUnion(st.urls, removed, {url});
      PendingDrop(st.pending, removed, url);
    }
  }

  lemma UnexpiredMap(pending: map<string, int>, now: int)
    ensures pending - Expired(pending, now) == (map k | k in pending && pending[k] > now :: pending[k])
  {
  }

  /** The effects of `n` calls of `removeBlockedUrl`. */
  function RemovalEffects(n: nat): (r: seq<Effect>)
    ensures |r| == 2 * n
  {
    if n == 0 then [] else RemovalEffects(n - 1) + [WriteUrls, SyncRules]
  }

  /** Number of resyncs among some effects. */
  function SyncCount(effects: seq<Effect>): nat {
    if effects == [] then 0
    else SyncCount(effects[..|effects| - 1]) + (if effects[|effects| - 1] == SyncRules then 1 else 0)
  }

  lemma {:induction false} SyncCountAppend(a: seq<Effect>, b: seq<Effect>)
    ensures SyncCount(a + b) == SyncCount(a) + SyncCount(b)
    decreases |b|
  {
    if b == [] {
      assert a + b == a;
    } else {
      assert (a + b)[..|a + b| - 1] == a + b[..|b| - 1];
      SyncCountAppend(a, b[..|b| - 1]);
    }
  }

  /** Each removal resyncs once. */
  lemma {:induction false} RemovalSyncs(n: nat)
    ensures SyncCount(RemovalEffects(n)) == n
  {
    if n > 0 {
      RemovalSyncs(n - 1);
      SyncCountAppend(RemovalEffects(n - 1), [WriteUrls, SyncRules]);
      assert SyncCount([WriteUrls, SyncRules]) == 1 by {
        assert [WriteUrls, SyncRules][..1] == [WriteUrls];
        assert [WriteUrls][..0] == [];
      }
    }
  }

  /** The loop of one tick: every pending key is visited once, and each
      expired one is removed from the list (a list write and a resync) and
      from the working copy of the map. */
  method ExpireLoop(st: State, now: int)
    returns (urls: seq<string>, pending: map<string, int>, effects: seq<Effect>)
    ensures urls == Without(st.urls, Expired(st.pending, now))
    ensures pending == st.pending - Expired(st.pending, now)
    ensures effects == RemovalEffects(|Expired(st.pending, now)|)
  {
    var remaining := st.pending.Keys;
    var removed: set<string> := {};
    urls, pending, effects := st.urls, st.pending, [];
    WithoutNothing(st.urls, {});
    while remaining != {}
      invariant remaining <= st.pending.Keys
      invariant removed == Expired(st.pending, now) - remaining
      invariant urls == Without(st.urls, removed)
      invariant pending == st.pending - removed
      invariant effects == RemovalEffects(|removed|)
      decreases remaining
    {
      var url :| url in remaining;
      ExpireStep(st, now, remaining, removed, url);
      if st.pending[url] - now <= 0 {
        urls := Without(urls, {url});
        pending := pending - {url};
        removed := removed + {url};
        effects := effects + [WriteUrls, SyncRules];
      }
      remaining := remaining - {url};
    }
    assert removed == Expired(st.pending, now);
  }

  /** One tick of the removal checker at a fixed `now`: the loop, then, when
      anything expired, the map is written once and the rules resynced once
      more. A tick in which nothing expired writes nothing. */
  method ExpireTick(st: State, now: int) returns (r: Step)
    ensures r.state == ExpireResult(st, now)
    ensures r.effects == [] <==> Expired(st.pending, now) == {}
    ensures Expired(st.pending, now) != {} ==>
              r.effects == RemovalEffects(|Expired(st.pending, now)|) + [WritePending, SyncRules]
  {
    var urls, pending, effects := ExpireLoop(st, now);
    var hasExpired := Expired(st.pending, now) != {};
    if hasExpired {
      effects := effects + [WritePending, SyncRules];
    }
    UnexpiredMap(st.pending, now);
    r := Step(State(urls, st.enabled, pending), effects);
  }

  /** However many entries expire together, the tick resyncs once per
      expired entry and once at the end, and the final resync comes last. */
  lemma TickSyncs(n: nat)
    requires n > 0
    ensures SyncCount(RemovalEffects(n) + [WritePending, SyncRules]) == n + 1
  {
    RemovalSyncs(n);
    SyncCountAppend(RemovalEffects(n), [WritePending, SyncRules]);
    assert SyncCount([WritePending, SyncRules]) == 1 by {
      assert [WritePending, SyncRules][..1] == [WritePending];
      assert [WritePending][..0] == [];
    }
  }

  /** A second tick at the same `now` finds nothing to expire and changes
      nothing. */
  lemma {:induction false} TickIdempotent(st: State, now: int)
    ensures Expired(ExpireResult(st, now).pending, now) == {}
    ensures ExpireResult(ExpireResult(st, now), now) == ExpireResult(st, now)
  {
    var once := ExpireResult(st, now);
    WithoutNothing(once.urls, Expired(once.pending, now));
  }

  // ---------------------------------------------------------------------
  // Invariants

  /** Every pending key is a listed pattern. Nothing in the code maintains
      this: `RemoveLeavesPending` leaves a key behind, and the popup can
      schedule a key the store never listed (`Popup.SlashEntryRemovalMisses`). */
  ghost predicate PendingListed(st: State) {
    forall k :: k in st.pending ==> k in st.urls
  }

  /** Adding keeps every pending key listed. */
  lemma AddKeepsPendingListed(st: State, input: JsValue)
    requires PendingListed(st)
    ensures PendingListed(AddBlockedUrl(st, input).state)
  {
  }

  /** Cancelling keeps every pending key listed. */
  lemma CancelKeepsPendingListed(st: State, url: string)
    requires PendingListed(st)
    ensures PendingListed(CancelRemovalSchedule(st, url).state)
  {
  }

  /** A tick keeps the list free of duplicates and, since it drops an
      expired key from the map and the list together, keeps every pending
      key listed. */
  lemma TickKeepsInvariants(st: State, now: int)
    ensures NoDuplicates(st.urls) ==> NoDuplicates(ExpireResult(st, now).urls)
    ensures PendingListed(st) ==> PendingListed(ExpireResult(st, now))
  {
  }

  /** `removeBlockedUrl` leaves the pending entry of the pattern it removed,
      so a listed, pending pattern stops being listed but stays pending. */
  lemma RemoveLeavesPending(st: State, url: string)
    requires url in st.pending
    ensures var r := RemoveBlockedUrl(st, url).state;
            url in r.pending && url !in r.urls && !PendingListed(r)
  {
  }

  /** Consequence of the stale entry: a pattern scheduled for removal, then
      removed at once and added again, is removed by the tick at the old
      expiry time although the user re-added it. */
  lemma StaleScheduleRemovesReAdded()
    ensures var s0 := State(["a.com"], Some(true), map[]);
            var s1 := ScheduleRemoval(s0, "a.com", 100).state;
            var s2 := RemoveBlockedUrl(s1, "a.com").state;
            var s3 := AddBlockedUrl(s2, Str("a.com")).state;
            s3.urls == ["a.com"] && ExpireResult(s3, 100).urls == []
  {
    var s0 := State(["a.com"], Some(true), map[]);
    var s1 := ScheduleRemoval(s0, "a.com", 100).state;
    var s2 := RemoveBlockedUrl(s1, "a.com").state;
    assert s2.urls == [];
    NormalizeExample();
    var s3 := AddBlockedUrl(s2, Str("a.com")).state;
    assert s3.urls == ["a.com"];
    assert Expired(s3.pending, 100) == {"a.com"};
  }

  /** A text that neither begins nor ends with whitespace and does not end
      in `/` is its own normal form. */
  lemma NormalizeClean(s: string)
    requires s != [] && !IsJsSpace(s[0]) && !IsJsSpace(s[|s| - 1]) && s[|s| - 1] != '/'
    ensures NormalizeUrl(Str(s)) == Some(s)
  {
    TrimTrimmed(s);
    StripNoSlash(s);
  }

  lemma NormalizeExample()
    ensures NormalizeUrl(Str("a.com")) == Some("a.com")
  {
    NormalizeClean("a.com");
  }

  /** A slash after a text that does not start with whitespace or end in
      `/` is all that normalization removes. */
  lemma NormalizeOneSlash(t: string)
    requires t != [] && !IsJsSpace(t[0]) && t[|t| - 1] != '/'
    ensures NormalizeUrl(Str(t + "/")) == Some(t)
  {
    var s := t + "/";
    TrimTrimmed(s);
    assert s[..|s| - 1] == t;
    StripNoSlash(t);
  }

  /** One whitespace character after a text that neither begins nor ends
      with whitespace, nor ends in `/`, is all that normalization removes. */
  lemma NormalizeOneSpace(t: string, sp: char)
    requires t != [] && !IsJsSpace(t[0]) && !IsJsSpace(t[|t| - 1]) && t[|t| - 1] != '/'
    requires IsJsSpace(sp)
    ensures NormalizeUrl(Str(t + [sp])) == Some(t)
  {
    var s := t + [sp];
    TrimTrailingSpace(s);
    assert s[..|s| - 1] == t;
    StripNoSlash(t);
  }

  /** `normalizeUrl` trims before it strips slashes, so whitespace before a
      trailing slash survives and a second normalization changes the result:
      `x + " /"` normalizes to `x + " "`, which normalizes to `x`. */
  lemma NormalizeNotIdempotent(x: string, sp: char)
    requires x != [] && !IsJsSpace(x[0]) && !IsJsSpace(x[|x| - 1]) && x[|x| - 1] != '/'
    requires IsJsSpace(sp)
    ensures NormalizeUrl(Str(x + [sp] + "/")) == Some(x + [sp])
    ensures NormalizeUrl(Str(x + [sp])) == Some(x)
  {
    NormalizeOneSlash(x + [sp]);
    NormalizeOneSpace(x, sp);
  }

  lemma NormalizeNotIdempotentExample()
    ensures NormalizeUrl(Str("a.com /")) == Some("a.com ")
    ensures NormalizeUrl(Str("a.com ")) == Some("a.com")
  {
    NormalizeNotIdempotent("a.com", ' ');
    assert "a.com" + [' '] == "a.com ";
    assert "a.com " + "/" == "a.com /";
  }

  lemma StripNoSlash(s: string)
    requires s == [] || s[|s| - 1] != '/'
    ensures StripTrailingSlashes(s) == s
  {
  }

  /** One trailing whitespace character after a non-blank text is all that
      `trim` removes. */
  lemma TrimTrailingSpace(s: string)
    requires |s| >= 2 && !IsJsSpace(s[0])
    requires IsJsSpace(s[|s| - 1]) && !IsJsSpace(s[|s| - 2])
    ensures Trim(s) == s[..|s| - 1]
  {
    assert SkipSpaces(s, 0) == 0;
    assert SkipSpacesBack(s, 0, |s| - 1) == |s| - 1;
  }

  /** Whitespace-only input trims to the empty string, which
      `addBlockedUrl` treats as no input. */
  lemma AddBlankIsNoOp(st: State, s: string)
    requires forall i :: 0 <= i < |s| ==> IsJsSpace(s[i])
    ensures AddBlockedUrl(st, Str(s)) == Step(st, [])
  {
  }

  /** Slash-only input loses all its slashes, so it is no input either. */
  lemma AddSlashesIsNoOp(st: State, s: string)
    requires forall i :: 0 <= i < |s| ==> s[i] == '/'
    ensures AddBlockedUrl(st, Str(s)) == Step(st, [])
  {
    if s != [] {
      assert s[0] == '/' && s[|s| - 1] == '/';
      TrimTrimmed(s);
    }
  }
}

=== FILE: content.dfy ===
/** The blocking decision of web-extension/content.js, the in-page fallback
    for the declarativeNetRequest rules: it reads the stored list directly,
    fails open, and asks the background to navigate away from a match. */
module ContentScript {
  import opened Wrappers
  import opened JsString
  import opened Url
  import Matcher
  import UrlFilter
  import Blocklist
  import SyncEngine
  import Background

  /** The script does not run on a page whose href contains this. */
  const BlockedPageMarker := "blocked.html"

  /** The script's own copy of `urlMatchesRule`, written as its chain of
      early returns; any parse failure lands in the catch and its substring
      test. */
  function ContentMatchesRule(parse: Parser, current: string, blocked: string): (r: bool)
    ensures parse(WithScheme(blocked)).Some? && parse(current).Some? ==>
              (r <==> EndsWith(parse(current).value.hostname, parse(WithScheme(blocked)).value.hostname)
                      && (var bp := parse(WithScheme(blocked)).value.pathname;
                          bp != "" && bp != "/" ==> StartsWith(parse(current).value.pathname, bp)))
    ensures parse(WithScheme(blocked)).None? || parse(current).None? ==>
              (r <==> Includes(current, blocked))
  {
    var normalized := if StartsWith(blocked, "http") then blocked else "https://" + blocked;
    match parse(normalized)
    case None => Includes(current, blocked)
    case Some(b) =>
      match parse(current)
      case None => Includes(current, blocked)
      case Some(c) =>
        if !EndsWith(c.hostname, b.hostname) then false
        else if b.pathname != "" && b.pathname != "/" then StartsWith(c.pathname, b.pathname)
        else true
  }

  /** The copy agrees with the background's matcher on every input. */
  lemma ContentMatcherAgrees(parse: Parser, current: string, blocked: string)
    ensures ContentMatchesRule(parse, current, blocked) == Matcher.UrlMatchesRule(parse, current, blocked)
  {
  }

  /** What one `checkAndBlock` run does: nothing, or stop the page and send
      `navigateToBlocked` with the page's href. */
  datatype Outcome = Pass | Block(navigateUrl: string)

  /** `checkAndBlock()` on the page `href`, given the storage read (None when
      the read throws). A failed read, a flag stored as `false` or an empty
      list let the page through; otherwise it is blocked exactly when some
      stored pattern matches the href. */
  function CheckAndBlock(read: Option<Blocklist.State>, href: string, parse: Parser): (r: Outcome)
    ensures read.None? ==> r == Pass
    ensures r.Block? <==>
              read.Some? && SyncEngine.SyncEnabled(read.value)
              && exists i :: 0 <= i < |read.value.urls| && Matcher.UrlMatchesRule(parse, href, read.value.urls[i])
    ensures r.Block? ==> r.navigateUrl == href
  {
    match read
    case None => Pass
    case Some(st) =>
      var enabled := st.enabled != Some(false);
      if !enabled || |st.urls| == 0 then Pass
      else if Matcher.AnyOf(st.urls, (p: string) => ContentMatchesRule(parse, href, p)) then
        ContentAgreesOnList(parse, href, st.urls);
        Block(href)
      else
        ContentAgreesOnList(parse, href, st.urls);
        Pass
  }

  lemma ContentAgreesOnList(parse: Parser, href: string, urls: seq<string>)
    ensures (exists i :: 0 <= i < |urls| && ContentMatchesRule(parse, href, urls[i]))
            <==> (exists i :: 0 <= i < |urls| && Matcher.UrlMatchesRule(parse, href, urls[i]))
  {
    forall i | 0 <= i < |urls|
      ensures ContentMatchesRule(parse, href, urls[i]) == Matcher.UrlMatchesRule(parse, href, urls[i])
    {
      ContentMatcherAgrees(parse, href, urls[i]);
    }
  }

  /** The first run on page load: skipped on the blocked page itself,
      otherwise one `checkAndBlock`. */
  function OnLoad(read: Option<Blocklist.State>, href: string, parse: Parser): (r: Option<Outcome>)
    ensures r.None? <==> Includes(href, BlockedPageMarker)
    ensures r.Some? ==> r.value == CheckAndBlock(read, href, parse)
  {
    if Includes(href, BlockedPageMarker) then None else Some(CheckAndBlock(read, href, parse))
  }

  /** The script stands down on the page the blocking rules redirect to:
      every URL built as an origin, the redirect path and a query value
      contains the marker. */
  lemma SkipsRedirectTarget(read: Option<Blocklist.State>, origin: string, query: string, parse: Parser)
    ensures OnLoad(read, origin + SyncEngine.BlockedPagePath + query, parse) == None
  {
    var href := origin + SyncEngine.BlockedPagePath + query;
    MarkerInRedirectPath();
    assert href[|origin| + 9..|origin| + 21] == SyncEngine.BlockedPagePath[9..21];
    assert OccursAt(href, BlockedPageMarker, |origin| + 9);
  }

  lemma MarkerInRedirectPath()
    ensures SyncEngine.BlockedPagePath[9..21] == BlockedPageMarker
  {
  }

  /** The marker test is a substring test on the whole href, so an ordinary
      page that mentions `blocked.html` anywhere, here in its query, escapes
      the first check although a stored pattern matches it. */
  lemma MarkedPageEscapes(parse: Parser)
    requires parse("https://example.com") == Some(Url("example.com", "/"))
    requires parse("https://example.com/?blocked.html") == Some(Url("example.com", "/"))
    ensures Matcher.UrlMatchesRule(parse, "https://example.com/?blocked.html", "example.com")
    ensures CheckAndBlock(Some(Blocklist.State(["example.com"], Some(true), map[])),
                          "https://example.com/?blocked.html", parse).Block?
    ensures OnLoad(Some(Blocklist.State(["example.com"], Some(true), map[])),
                   "https://example.com/?blocked.html", parse) == None
  {
    var href := "https://example.com/?blocked.html";
    var st := Blocklist.State(["example.com"], Some(true), map[]);
    UrlFilter.BareExampleDefaulted();
    assert Matcher.UrlMatchesRule(parse, href, st.urls[0]);
    assert href[21..33] == BlockedPageMarker;
    assert OccursAt(href, BlockedPageMarker, 21);
  }

  /** One 500 ms poll: when the href has changed since the last check the
      check runs again on the new href, which becomes the remembered one. */
  function Poll(current: string, href: string, read: Option<Blocklist.State>, parse: Parser)
    : (r: (string, Option<Outcome>))
    ensures r.0 == href
    ensures r.1.Some? <==> href != current
    ensures r.1.Some? ==> r.1.value == CheckAndBlock(read, href, parse)
  {
    if href != current then (href, Some(CheckAndBlock(read, href, parse))) else (current, None)
  }

  /** A second poll on an unchanged href does nothing. */
  lemma PollSettles(current: string, href: string, read: Option<Blocklist.State>, parse: Parser)
    ensures Poll(Poll(current, href, read, parse).0, href, read, parse).1 == None
  {
  }

  /** With the flag stored as `true`, the script blocks exactly the pages the
      background's `isUrlBlocked` reports as blocked. */
  lemma AgreesWithIsUrlBlocked(st: Blocklist.State, href: string, parse: Parser)
    requires st.enabled == Some(true)
    ensures CheckAndBlock(Some(st), href, parse).Block? <==> Background.IsUrlBlocked(st, href, parse)
  {
  }

  /** With no stored flag, the script still blocks a matching page, while
      `isUrlBlocked` reports it as not blocked. */
  lemma AbsentFlagStillBlocks(st: Blocklist.State, href: string, parse: Parser, i: nat)
    requires st.enabled == None
    requires i < |st.urls| && Matcher.UrlMatchesRule(parse, href, st.urls[i])
    ensures CheckAndBlock(Some(st), href, parse) == Block(href)
    ensures !Background.IsUrlBlocked(st, href, parse)
  {
  }

  /** The script only ever blocks while rules are installed for the same
      stored state: it is a fallback for them, never an extra policy. */
  lemma BlocksOnlyWithRules(st: Blocklist.State, href: string, parse: Parser, encode: string -> string)
    requires CheckAndBlock(Some(st), href, parse).Block?
    ensures SyncEngine.DesiredRules(st, parse, encode) != []
  {
  }
}

=== FILE: decimal.dfy ===
/** Decimal rendering of non-negative integers, as a JavaScript template
    literal `${n}` renders an integral Number. */
module Decimal {

  predicate IsDigit(c: char) {
    '0' <= c <= '9'
  }

  function DigitValue(c: char): nat
    requires IsDigit(c)
  {
    c as int - '0' as int
  }

  function DigitChar(d: nat): (c: char)
    requires d < 10
    ensures IsDigit(c)
    ensures DigitValue(c) == d
  {
    ['0', '1', '2', '3', '4', '5', '6', '7', '8', '9'][d]
  }

  /** The value a string of decimal digits denotes, most significant first. */
  function Value(s: string): nat
    requires forall i :: 0 <= i < |s| ==> IsDigit(s[i])
  {
    if s == [] then 0
    else Value(s[..|s| - 1]) * 10 + DigitValue(s[|s| - 1])
  }

  /** Shortest decimal representation of `n`: digits only, no leading zero
      unless the number is zero, and denoting `n`. */
  function NatToString(n: nat): (r: string)
    ensures 1 <= |r|
    ensures forall i :: 0 <= i < |r| ==> IsDigit(r[i])
    ensures r[0] == '0' ==> n == 0 && r == "0"
    ensures Value(r) == n
    decreases n
  {
    if n < 10 then [DigitChar(n)]
    else
      var prefix := NatToString(n / 10);
      var r := prefix + [DigitChar(n % 10)];
      assert r[..|r| - 1] == prefix;
      r
  }

  predicate AllDigits(s: string) {
    forall i :: 0 <= i < |s| ==> IsDigit(s[i])
  }

  /** The form `NatToString` produces: a non-empty digit run with no leading
      zero unless it is `0` itself. */
  predicate Canonical(s: string) {
    s != [] && AllDigits(s) && (s[0] == '0' ==> |s| == 1)
  }

  lemma DigitCharOfValue(c: char)
    requires IsDigit(c)
    ensures DigitChar(DigitValue(c)) == c
  {
  }

  /** Appending a digit `d` to the rendering of `q` is the rendering of
      `q * 10 + d`, when `q` is positive. */
  lemma RenderAppend(q: nat, d: nat)
    requires q > 0 && d < 10
    ensures NatToString(q * 10 + d) == NatToString(q) + [DigitChar(d)]
  {
    var n := q * 10 + d;
    assert n / 10 == q && n % 10 == d;
  }

  /** A single digit renders as itself. */
  lemma DigitRendering(s: string)
    requires |s| == 1 && IsDigit(s[0])
    ensures NatToString(Value(s)) == s
  {
    assert s[..0] == [];
    DigitCharOfValue(s[0]);
  }

  /** Dropping the last digit of a canonical run of two or more digits
      leaves a canonical run that does not start with `0`. */
  lemma CanonicalPrefix(s: string)
    requires Canonical(s) && |s| > 1
    ensures Canonical(s[..|s| - 1]) && s[..|s| - 1][0] != '0'
  {
  }

  /** A rendering that does not start with `0` is of a positive number. */
  lemma RenderingPositive(n: nat)
    requires NatToString(n)[0] != '0'
    ensures n > 0
  {
  }

  /** Every canonical digit run is the rendering of the number it denotes,
      so the renderings are exactly the canonical runs. */
  lemma {:induction false} CanonicalIsRendering(s: string)
    requires Canonical(s)
    ensures NatToString(Value(s)) == s
    decreases |s|
  {
    if |s| == 1 {
      DigitRendering(s);
    } else {
      var p, c := s[..|s| - 1], s[|s| - 1];
      CanonicalPrefix(s);
      CanonicalIsRendering(p);
      RenderingPositive(Value(p));
      DigitCharOfValue(c);
      RenderAppend(Value(p), DigitValue(c));
      assert s == p + [c];
    }
  }

  /** Distinct numbers render differently. */
  lemma NatToStringInjective(a: nat, b: nat)
    requires NatToString(a) == NatToString(b)
    ensures a == b
  {
  }
}

=== FILE: filter.dfy ===
/** The rule compiler of web-extension/background.js (`buildUrlFilter`): a
    stored pattern becomes a declarativeNetRequest `urlFilter` string in one
    of three shapes. */
module UrlFilter {
  import opened Wrappers
  import opened JsString
  import opened Url

  /** The three `urlFilter` shapes the compiler emits. */
  datatype Filter =
    | DomainAnchor(domain: string)   // `||domain^`: the domain and its subdomains
    | PathPrefix(prefix: string)     // `||domain/path*`: one path subtree
    | Loose(raw: string)             // `*raw*`: the raw text anywhere in the URL

  /** The `urlFilter` text of a shape. */
  function Render(f: Filter): string {
    match f
    case DomainAnchor(d) => "||" + d + "^"
    case PathPrefix(p) => "||" + p + "*"
    case Loose(raw) => "*" + raw + "*"
  }

  /** Reads a `urlFilter` text back into its shape; `None` for text the
      compiler never produces. Whatever it accepts renders back unchanged. */
  function Decode(s: string): (r: Option<Filter>)
    ensures r.Some? ==> Render(r.value) == s
  {
    if |s| >= 3 && s[..2] == "||" && s[|s| - 1] == '^' then
      assert s == "||" + s[2..|s| - 1] + "^";
      Some(DomainAnchor(s[2..|s| - 1]))
    else if |s| >= 3 && s[..2] == "||" && s[|s| - 1] == '*' then
      assert s == "||" + s[2..|s| - 1] + "*";
      Some(PathPrefix(s[2..|s| - 1]))
    else if |s| >= 2 && s[0] == '*' && s[|s| - 1] == '*' then
      assert s == "*" + s[1..|s| - 1] + "*";
      Some(Loose(s[1..|s| - 1]))
    else None
  }

  /** Every shape is recovered from its text: the three forms never collide. */
  lemma DecodeRender(f: Filter)
    ensures Decode(Render(f)) == Some(f)
  {
    var s := Render(f);
    match f
    case DomainAnchor(d) =>
      assert s[..2] == "||" && s[|s| - 1] == '^' && s[2..|s| - 1] == d;
    case PathPrefix(p) =>
      assert s[..2] == "||" && s[|s| - 1] == '*' && s[2..|s| - 1] == p;
    case Loose(raw) =>
      assert s[0] == '*' && s[..2] != "||" && s[|s| - 1] == '*' && s[1..|s| - 1] == raw;
  }

  /** The pathname `buildUrlFilter` scopes a rule to: anything but the empty
      path and the root `/`. */
  predicate ScopedPath(pathname: string) {
    pathname != "" && pathname != "/"
  }

  /** The shape `buildUrlFilter` chooses for a pattern. The pattern is parsed
      after scheme defaulting; a rejected pattern gives a loose filter on the
      raw input; otherwise the hostname loses at most one leading `www.` and
      the rule is path-scoped exactly when the pathname is neither empty nor
      the root. */
  function Compile(parse: Parser, input: string): (f: Filter)
    ensures f.Loose? <==> parse(WithScheme(input)).None?
    ensures f.Loose? ==> f.raw == input
    ensures f.DomainAnchor? ==>
              var u := parse(WithScheme(input)).value;
              !ScopedPath(u.pathname) && f.domain == StripWww(u.hostname)
    ensures f.PathPrefix? ==>
              var u := parse(WithScheme(input)).value;
              ScopedPath(u.pathname) && f.prefix == StripWww(u.hostname) + u.pathname
  {
    match parse(WithScheme(input))
    case None => Loose(input)
    case Some(u) =>
      var pathname := if u.pathname != "/" then u.pathname else "";
      var baseDomain := StripWww(u.hostname);
      if pathname != "" then PathPrefix(baseDomain + pathname) else DomainAnchor(baseDomain)
  }

  /** `buildUrlFilter(input)`: the text decodes to the shape `Compile` chose. */
  function BuildUrlFilter(parse: Parser, input: string): (r: string)
    ensures Decode(r) == Some(Compile(parse, input))
  {
    DecodeRender(Compile(parse, input));
    Render(Compile(parse, input))
  }

  /** Hosts a `||domain^` filter reaches under declarativeNetRequest's
      domain-name anchor: the domain itself and its subdomains, split at a
      label boundary. */
  predicate AnchorCoversHost(domain: string, host: string) {
    host == domain || EndsWith(host, "." + domain)
  }

  /** `example.com` compiles to a domain-anchored filter. */
  lemma CompileBareDomain(parse: Parser)
    requires parse("https://example.com") == Some(Url("example.com", "/"))
    ensures BuildUrlFilter(parse, "example.com") == "||example.com^"
  {
    BareExampleDefaulted();
    BareExampleRendered();
    assert Compile(parse, "example.com") == DomainAnchor("example.com");
  }

  lemma BareExampleRendered()
    ensures StripWww("example.com") == "example.com"
    ensures Render(DomainAnchor("example.com")) == "||example.com^"
  {
    MismatchNotPrefix("example.com", "www.", 0);
  }

  /** `www.example.com/path` loses its `www.` and is scoped to the path. */
  lemma CompileWwwPath(parse: Parser)
    requires parse("https://www.example.com/path") == Some(Url("www.example.com", "/path"))
    ensures BuildUrlFilter(parse, "www.example.com/path") == "||example.com/path*"
  {
    WithSchemeExample();
    StripWwwExample();
    RenderExample();
  }

  lemma RenderExample()
    ensures Render(PathPrefix("example.com" + "/path")) == "||example.com/path*"
  {
    assert "||" + ("example.com" + "/path") + "*" == "||example.com/path*";
  }

  // Facts about string literals, kept apart from any parser assumption.

  lemma WithSchemeExample()
    ensures WithScheme("www.example.com/path") == "https://www.example.com/path"
  {
    SchemeAdded("www.example.com/path", "https://www.example.com/path");
  }

  lemma BareExampleDefaulted()
    ensures WithScheme("example.com") == "https://example.com"
  {
    SchemeAdded("example.com", "https://example.com");
  }

  lemma WwwPatternDefaulted()
    ensures WithScheme("www.example.com") == "https://www.example.com"
  {
    SchemeAdded("www.example.com", "https://www.example.com");
  }

  lemma StripWwwExample()
    ensures StripWww("www.example.com") == "example.com"
  {
    assert "www.example.com" == "www." + "example.com";
  }

  /** An input beginning with `http` that the parser rejects, such as a bare
      `httpbin.org`, falls back to the loose filter. */
  lemma CompileHttpPrefixedHost(parse: Parser)
    requires parse("httpbin.org") == None
    ensures BuildUrlFilter(parse, "httpbin.org") == "*httpbin.org*"
  {
    HttpPrefixedHostKeptBare();
  }
}

=== FILE: jsstring.dfy ===
/** The few ECMAScript string operations the extension relies on:
    `startsWith`, `endsWith`, `includes`, `trim`, and the two regular
    expression replacements `/\/+$/` and `/^www\./`. Strings are sequences of
    Unicode scalar values; every whitespace character `trim` removes lies in
    the Basic Multilingual Plane, so UTF-16 code units and scalars agree here. */
module JsString {

  /** `s.startsWith(p)` */
  predicate StartsWith(s: string, p: string) {
    |p| <= |s| && s[..|p|] == p
  }

  /** A mismatch at one index within both strings rules out the prefix. */
  lemma MismatchNotPrefix(s: string, p: string, i: nat)
    requires i < |p| && i < |s| && s[i] != p[i]
    ensures !StartsWith(s, p)
  {
    if |p| <= |s| {
      assert s[..|p|][i] != p[i];
    }
  }

  /** `s.endsWith(p)` */
  predicate EndsWith(s: string, p: string) {
    |p| <= |s| && s[|s| - |p|..] == p
  }

  /** `p` occurs in `s` starting at index `i`. */
  predicate OccursAt(s: string, p: string, i: int) {
    0 <= i && i + |p| <= |s| && s[i..i + |p|] == p
  }

  /** `s.includes(p)` */
  predicate Includes(s: string, p: string) {
    exists i | 0 <= i <= |s| - |p| :: OccursAt(s, p, i)
  }

  /** WhiteSpace and LineTerminator code points of ECMAScript, the characters
      `String.prototype.trim` removes. */
  predicate IsJsSpace(c: char) {
    || c == '\t' || c == '\n' || c == '\U{000B}' || c == '\U{000C}' || c == '\r'
    || c == ' ' || c == '\U{00A0}' || c == '\U{1680}'
    || ('\U{2000}' <= c <= '\U{200A}')
    || c == '\U{2028}' || c == '\U{2029}' || c == '\U{202F}' || c == '\U{205F}'
    || c == '\U{3000}' || c == '\U{FEFF}'
  }

  /** The index of the first non-whitespace character at or after `k`, or
      `|s|` when there is none. */
  function SkipSpaces(s: string, k: nat): (r: nat)
    requires k <= |s|
    ensures k <= r <= |s|
    ensures forall i :: k <= i < r ==> IsJsSpace(s[i])
    ensures r < |s| ==> !IsJsSpace(s[r])
    decreases |s| - k
  {
    if k < |s| && IsJsSpace(s[k]) then SkipSpaces(s, k + 1) else k
  }

  /** The index just past the last non-whitespace character in `s[lo..k]`,
      or `lo` when there is none. */
  function SkipSpacesBack(s: string, lo: nat, k: nat): (r: nat)
    requires lo <= k <= |s|
    ensures lo <= r <= k
    ensures forall i :: r <= i < k ==> IsJsSpace(s[i])
    ensures r > lo ==> !IsJsSpace(s[r - 1])
    decreases k
  {
    if k > lo && IsJsSpace(s[k - 1]) then SkipSpacesBack(s, lo, k - 1) else k
  }

  /** `r` is `s` with exactly the first `lo` characters and some trailing
      characters removed, all of them whitespace. */
  predicate TrimmedAt(s: string, r: string, lo: int) {
    && 0 <= lo <= |s| - |r|
    && r == s[lo..lo + |r|]
    && (forall i :: 0 <= i < lo ==> IsJsSpace(s[i]))
    && (forall i :: lo + |r| <= i < |s| ==> IsJsSpace(s[i]))
  }

  /** `s.trim()`: a contiguous slice of `s` with whitespace-only margins, that
      neither begins nor ends with whitespace; the left margin is the run of
      whitespace at the front. */
  function Trim(s: string): (r: string)
    ensures TrimmedAt(s, r, SkipSpaces(s, 0))
    ensures r == [] || (!IsJsSpace(r[0]) && !IsJsSpace(r[|r| - 1]))
  {
    var lo := SkipSpaces(s, 0);
    s[lo..SkipSpacesBack(s, lo, |s|)]
  }

  /** A string that neither begins nor ends with whitespace is a fixed point
      of `trim`. */
  lemma TrimTrimmed(s: string)
    requires s == [] || (!IsJsSpace(s[0]) && !IsJsSpace(s[|s| - 1]))
    ensures Trim(s) == s
  {
  }

  /** `trim` is idempotent. */
  lemma TrimIdempotent(s: string)
    ensures Trim(Trim(s)) == Trim(s)
  {
    TrimTrimmed(Trim(s));
  }

  /** `s.replace(/\/+$/, '')`: the longest run of trailing `/` is dropped. */
  function StripTrailingSlashes(s: string): (r: string)
    ensures |r| <= |s| && r == s[..|r|]
    ensures forall i :: |r| <= i < |s| ==> s[i] == '/'
    ensures r == [] || r[|r| - 1] != '/'
  {
    if |s| > 0 && s[|s| - 1] == '/' then StripTrailingSlashes(s[..|s| - 1]) else s
  }

  /** `h.replace(/^www\./, '')`: at most one leading `www.` is dropped. */
  function StripWww(h: string): (r: string)
    ensures h == r || h == "www." + r
    ensures h == r <==> !StartsWith(h, "www.")
  {
    if StartsWith(h, "www.") then
      assert h == "www." + h[4..];
      h[4..]
    else h
  }

  lemma StripWwwOnce()
    ensures StripWww("www.www.example.com") == "www.example.com"
  {
    assert StartsWith("www.www.example.com", "www.");
  }
}

=== FILE: matcher.dfy ===
/** `urlMatchesRule` of web-extension/background.js: whether a page URL falls
    under a stored pattern, by hostname suffix and pathname prefix, with a raw
    substring test when either side does not parse. */
module Matcher {
  import opened Wrappers
  import opened JsString
  import opened Url
  import opened UrlFilter

  /** `urlMatchesRule(currentUrl, blockedUrl)`. The pattern gets scheme
      defaulting, the page URL does not. With both sides parsed, a match is
      exactly a hostname suffix plus, for a pattern with a path other than
      `/`, a pathname prefix; a parse failure on either side is caught and
      answered by `currentUrl.includes(blockedUrl)`, so the caller never sees
      an error. */
  function UrlMatchesRule(parse: Parser, current: string, blocked: string): (r: bool)
    ensures parse(WithScheme(blocked)).Some? && parse(current).Some? ==>
              (r <==> EndsWith(parse(current).value.hostname, parse(WithScheme(blocked)).value.hostname)
                      && (var bp := parse(WithScheme(blocked)).value.pathname;
                          bp != "" && bp != "/" ==> StartsWith(parse(current).value.pathname, bp)))
    ensures parse(WithScheme(blocked)).None? || parse(current).None? ==>
              (r <==> Includes(current, blocked))
  {
    match (parse(WithScheme(blocked)), parse(current))
    case (Some(b), Some(c)) =>
      && EndsWith(c.hostname, b.hostname)
      && (ScopedPath(b.pathname) ==> StartsWith(c.pathname, b.pathname))
    case _ => Includes(current, blocked)
  }

  /** `patterns.some(p => matches(p))`, visiting the list from the front. */
  function AnyOf(patterns: seq<string>, matches: string -> bool): (r: bool)
    ensures r <==> exists i :: 0 <= i < |patterns| && matches(patterns[i])
  {
    if patterns == [] then false
    else matches(patterns[0]) || AnyOf(patterns[1..], matches)
  }

  /** A page whose host is exactly the pattern host, or a subdomain of it,
      matches a pattern without a scoped path. */
  lemma MatchCoversSubdomains(parse: Parser, current: string, blocked: string, b: Url, c: Url)
    requires parse(WithScheme(blocked)) == Some(b) && parse(current) == Some(c)
    requires !ScopedPath(b.pathname)
    requires AnchorCoversHost(b.hostname, c.hostname)
    ensures UrlMatchesRule(parse, current, blocked)
  {
    if c.hostname != b.hostname {
      var d := "." + b.hostname;
      assert c.hostname[|c.hostname| - |d|..] == d;
      assert c.hostname[|c.hostname| - |b.hostname|..] == d[1..];
    }
  }

  /** Where the compiler keeps the hostname (no leading `www.`) and emits a
      domain anchor, every page host that anchor reaches is also matched by
      `urlMatchesRule`: the in-page check is at least as wide as the rule. */
  lemma AnchorWithinMatcher(parse: Parser, current: string, blocked: string, c: Url)
    requires parse(WithScheme(blocked)).Some?
    requires !StartsWith(parse(WithScheme(blocked)).value.hostname, "www.")
    requires parse(current) == Some(c)
    requires Compile(parse, blocked).DomainAnchor?
    requires AnchorCoversHost(Compile(parse, blocked).domain, c.hostname)
    ensures UrlMatchesRule(parse, current, blocked)
  {
    MatchCoversSubdomains(parse, current, blocked, parse(WithScheme(blocked)).value, c);
  }

  /** The hostname test is a plain suffix test, not a label-boundary test:
      `notexample.com` matches the pattern `example.com`, although the
      declarativeNetRequest anchor the compiler emits for that pattern does
      not reach it. */
  lemma MatchNotLabelBoundarySafe(parse: Parser)
    requires parse("https://example.com") == Some(Url("example.com", "/"))
    requires parse("https://notexample.com/") == Some(Url("notexample.com", "/"))
    ensures UrlMatchesRule(parse, "https://notexample.com/", "example.com")
    ensures !AnchorCoversHost("example.com", "notexample.com")
  {
    BareExampleDefaulted();
    NotExampleSuffix();
  }

  /** Example: the page `/other` lies outside the subtree of the pattern
      `example.com/foo` and is not matched. */
  lemma MatchRespectsPath(parse: Parser)
    requires parse("https://example.com/foo") == Some(Url("example.com", "/foo"))
    requires parse("https://example.com/other") == Some(Url("example.com", "/other"))
    ensures !UrlMatchesRule(parse, "https://example.com/other", "example.com/foo")
  {
    PathPatternDefaulted();
    MismatchNotPrefix("/other", "/foo", 1);
  }

  /** The compiler drops a leading `www.` but the matcher does not: for the
      pattern `www.example.com` the installed filter is `||example.com^`,
      which reaches `api.example.com`, while the matcher rejects that host. */
  lemma WwwCompilerMatcherDisagree(parse: Parser)
    requires parse("https://www.example.com") == Some(Url("www.example.com", "/"))
    requires parse("https://api.example.com/") == Some(Url("api.example.com", "/"))
    ensures BuildUrlFilter(parse, "www.example.com") == "||example.com^"
    ensures AnchorCoversHost("example.com", "api.example.com")
    ensures !UrlMatchesRule(parse, "https://api.example.com/", "www.example.com")
  {
    CompileWwwDomain(parse);
    ApiExampleSuffixes();
    WwwPatternDefaulted();
  }

  lemma CompileWwwDomain(parse: Parser)
    requires parse("https://www.example.com") == Some(Url("www.example.com", "/"))
    ensures BuildUrlFilter(parse, "www.example.com") == "||example.com^"
  {
    WwwPatternDefaulted();
    StripWwwExample();
    BareExampleRendered();
    assert Compile(parse, "www.example.com") == DomainAnchor("example.com");
  }

  // Facts about string literals, kept apart from any parser assumption.

  lemma PathPatternDefaulted()
    ensures WithScheme("example.com/foo") == "https://example.com/foo"
  {
    SchemeAdded("example.com/foo", "https://example.com/foo");
  }

  lemma NotExampleSuffix()
    ensures EndsWith("notexample.com", "example.com")
    ensures !AnchorCoversHost("example.com", "notexample.com")
  {
    assert "notexample.com"[3..] == "example.com";
    assert "notexample.com"[2..][0] != ".example.com"[0];
  }

  lemma ApiExampleSuffixes()
    ensures AnchorCoversHost("example.com", "api.example.com")
    ensures !EndsWith("api.example.com", "www.example.com")
  {
    ApiUnderExample();
    ApiNotUnderWww();
  }

  lemma ApiUnderExample()
    ensures AnchorCoversHost("example.com", "api.example.com")
  {
    assert "." + "example.com" == ".example.com";
    assert "api.example.com"[3..] == ".example.com";
  }

  lemma ApiNotUnderWww()
    ensures !EndsWith("api.example.com", "www.example.com")
  {
    assert "api.example.com"[0] != "www.example.com"[0];
  }
}

=== FILE: popup.dfy ===
/** The decision logic of web-extension/popup/popup.js: input validation,
    the add / remove / cancel handlers with the messages they send, the
    countdown label, and the once-a-second timer check. The popup keeps its
    own copy of the list and pending map, loaded from the background. */
module Popup {
  import opened Wrappers
  import opened JsString
  import opened Url
  import opened Decimal
  import UrlFilter
  import Blocklist
  import Background
  import SyncEngine

  /** The popup's local copy of the stored state. */
  datatype PopupState = PopupState(urls: seq<string>, pending: map<string, int>, enabled: bool)

  const HourMs := 60 * 60 * 1000
  const MinuteMs := 60 * 1000

  /** Delay `removeUrl` schedules: three hours in milliseconds. */
  const RemovalDelayMs := 3 * HourMs

  /** The delay the remove button's tooltip announces, in hours. */
  const TooltipHours := 5

  /** The countdown text once an entry is due. */
  const ExpiringSoon := "即將移除..."

  /** `init()`: loads the `getUrls` reply. A reply that is not a state
      report still loads, as an empty list that is enabled; a failed request
      (None) loads nothing. */
  function Init(reply: Option<Background.Response>): (r: Option<PopupState>)
    ensures r.None? <==> reply.None?
    ensures reply.Some? && reply.value.Urls? ==>
              r == Some(PopupState(reply.value.urls, reply.value.pendingRemovals, reply.value.enabled))
    ensures reply.Some? && !reply.value.Urls? ==> r == Some(PopupState([], map[], true))
  {
    match reply
    case None => None
    case Some(Urls(urls, enabled, pending)) => Some(PopupState(urls, pending, enabled))
    case Some(_) => Some(PopupState([], map[], true))
  }

  /** After loading, the popup shows the stored list and pending map, and
      shows the list as enabled unless the stored flag is `false`. */
  lemma InitMirrorsStore(st: Blocklist.State, parse: Parser)
    ensures Init(Some(Background.HandleMessage(st, Background.GetUrls, parse).response))
            == Some(PopupState(st.urls, st.pending, SyncEngine.SyncEnabled(st)))
  {
  }

  /** `isValidUrl(input)`: non-empty, parses after scheme defaulting, and the
      hostname has a dot. An accepted entry therefore never compiles to the
      loose `*input*` filter. */
  function IsValidUrl(parse: Parser, input: string): (r: bool)
    ensures r ==> input != [] && parse(WithScheme(input)).Some?
    ensures r ==> '.' in parse(WithScheme(input)).value.hostname
    ensures r ==> !UrlFilter.Compile(parse, input).Loose?
    ensures input != [] && parse(WithScheme(input)).Some? && '.' in parse(WithScheme(input)).value.hostname ==> r
  {
    if input == [] then false
    else
      match parse(WithScheme(input))
      case None => false
      case Some(u) => '.' in u.hostname
  }

  datatype AddError = EmptyInput | InvalidUrl | AlreadyListed

  datatype AddOutcome = Rejected(reason: AddError) | Sent(message: Background.Message)

  datatype AddResult = AddResult(state: PopupState, outcome: AddOutcome)

  /** `addUrl()` on the raw text field. The trimmed text is rejected, in this
      order, when empty, when not a valid URL, or when already in the local
      list (compared as typed, not normalized). Otherwise an `addUrl`
      message carries it, and it joins the local list only if the message
      was delivered. */
  function AddUrl(p: PopupState, raw: string, parse: Parser, delivered: bool): (r: AddResult)
    ensures r.outcome == Rejected(EmptyInput) <==> Trim(raw) == []
    ensures r.outcome == Rejected(InvalidUrl) <==> Trim(raw) != [] && !IsValidUrl(parse, Trim(raw))
    ensures r.outcome == Rejected(AlreadyListed) <==>
              Trim(raw) != [] && IsValidUrl(parse, Trim(raw)) && Trim(raw) in p.urls
    ensures r.outcome.Sent? ==> r.outcome.message == Background.AddUrl(Blocklist.Str(Trim(raw)))
    ensures r.state.urls == (if r.outcome.Sent? && delivered then p.urls + [Trim(raw)] else p.urls)
    ensures r.state.pending == p.pending && r.state.enabled == p.enabled
  {
    var input := Trim(raw);
    if input == [] then AddResult(p, Rejected(EmptyInput))
    else if !IsValidUrl(parse, input) then AddResult(p, Rejected(InvalidUrl))
    else if input in p.urls then AddResult(p, Rejected(AlreadyListed))
    else
      var state := if delivered then p.(urls := p.urls + [input]) else p;
      AddResult(state, Sent(Background.AddUrl(Blocklist.Str(input))))
  }

  /** An accepted entry is trimmed (see `AddUrl`), so it begins and ends
      with non-whitespace. When it does not end in `/`, the background
      stores it exactly as the popup lists it. */
  lemma AddedEntryStoredAsTyped(entry: string)
    requires entry != [] && !IsJsSpace(entry[0]) && !IsJsSpace(entry[|entry| - 1])
    requires entry[|entry| - 1] != '/'
    ensures Blocklist.NormalizeUrl(Blocklist.Str(entry)) == Some(entry)
  {
    TrimTrimmed(entry);
    var n := StripTrailingSlashes(entry);
    assert |n| == |entry|;
  }

  /** An accepted entry ending in a single `/` is listed with the slash by
      the popup but stored without it by the background, so the two lists
      differ. */
  lemma AddedSlashEntryDiverges(entry: string)
    requires |entry| >= 2 && !IsJsSpace(entry[0])
    requires entry[|entry| - 1] == '/' && entry[|entry| - 2] != '/'
    ensures Blocklist.NormalizeUrl(Blocklist.Str(entry)) == Some(entry[..|entry| - 1])
    ensures Blocklist.NormalizeUrl(Blocklist.Str(entry)).value != entry
  {
    TrimTrimmed(entry);
    var n := StripTrailingSlashes(entry);
    assert |n| == |entry| - 1;
  }

  datatype Action = Action(state: PopupState, message: Background.Message)

  /** `removeUrl(url)`: records, before sending, an expiry three hours after
      `now` in the local pending map, and asks the background to schedule
      the same expiry. */
  function RemoveUrl(p: PopupState, url: string, now: int): (r: Action)
    ensures url in r.state.pending && r.state.pending[url] - now == 10800000
    ensures r.message == Background.ScheduleRemoval(url, r.state.pending[url])
    ensures forall k :: k != url ==>
              (k in r.state.pending <==> k in p.pending)
              && (k in p.pending ==> r.state.pending[k] == p.pending[k])
    ensures r.state.urls == p.urls && r.state.enabled == p.enabled
  {
    var removalTime := now + RemovalDelayMs;
    Action(p.(pending := p.pending[url := removalTime]), Background.ScheduleRemoval(url, removalTime))
  }

  /** The popup's entry and the background's entry agree, and the pattern
      stays listed (and blocked) until the tick expires it. */
  lemma RemoveUrlAgrees(p: PopupState, st: Blocklist.State, url: string, now: int, parse: Parser)
    ensures var a := RemoveUrl(p, url, now);
            var b := Background.HandleMessage(st, a.message, parse).state;
            url in b.pending && b.pending[url] == a.state.pending[url] && b.urls == st.urls
  {
  }

  /** An entry typed with one trailing slash is stored without it, while the
      popup's local list keeps it as typed. Its remove button then schedules
      the key as typed, which is not listed in the store; when that key
      expires the tick removes nothing, and the stored pattern stays
      blocked. */
  lemma SlashEntryRemovalMisses(p: PopupState, st: Blocklist.State, entry: string, now: int, later: int, parse: Parser)
    requires |entry| >= 2 && !IsJsSpace(entry[0])
    requires entry[|entry| - 1] == '/' && entry[|entry| - 2] != '/'
    requires entry[..|entry| - 1] in st.urls && entry[..|entry| - 1] !in st.pending
    ensures Blocklist.NormalizeUrl(Blocklist.Str(entry)) == Some(entry[..|entry| - 1])
    ensures var b := Background.HandleMessage(st, RemoveUrl(p, entry, now).message, parse).state;
            && entry in b.pending
            && entry[..|entry| - 1] in Blocklist.ExpireResult(b, later).urls
  {
    AddedSlashEntryDiverges(entry);
    RemoveUrlAgrees(p, st, entry, now, parse);
    var b := Background.HandleMessage(st, RemoveUrl(p, entry, now).message, parse).state;
    assert entry[..|entry| - 1] != entry;
    assert entry[..|entry| - 1] !in b.pending;
  }

  /** The tooltip's five hours are not the three hours actually scheduled. */
  lemma TooltipDisagrees()
    ensures TooltipHours * HourMs != RemovalDelayMs
  {
  }

  /** `cancelRemoval(url)`: drops the local pending entry, before sending,
      and asks the background to drop its own. */
  function CancelRemoval(p: PopupState, url: string): (r: Action)
    ensures url !in r.state.pending
    ensures forall k :: k != url ==>
              (k in r.state.pending <==> k in p.pending)
              && (k in p.pending ==> r.state.pending[k] == p.pending[k])
    ensures r.message == Background.CancelRemoval(url)
    ensures r.state.urls == p.urls && r.state.enabled == p.enabled
  {
    Action(p.(pending := p.pending - {url}), Background.CancelRemoval(url))
  }

  /** Removing and then undoing from the popup leaves no pending entry for
      the pattern on either side. */
  lemma RemoveThenCancel(p: PopupState, st: Blocklist.State, url: string, now: int, parse: Parser)
    ensures var a1 := RemoveUrl(p, url, now);
            var b1 := Background.HandleMessage(st, a1.message, parse).state;
            var a2 := CancelRemoval(a1.state, url);
            var b2 := Background.HandleMessage(b1, a2.message, parse).state;
            url !in a2.state.pending && url !in b2.pending && b2.urls == st.urls
  {
  }

  /** `toggleEnabled(enabled)`: the switch is shown in its new position at
      once, and the new value is sent as the stored flag. */
  function ToggleEnabled(p: PopupState, enabled: bool): (r: Action)
    ensures r.state.enabled == enabled
    ensures r.message == Background.SetEnabled(Some(enabled))
    ensures r.state.urls == p.urls && r.state.pending == p.pending
  {
    Action(p.(enabled := enabled), Background.SetEnabled(Some(enabled)))
  }

  /** Once the toggle is handled, the background installs rules exactly when
      the popup shows the list as enabled, and a reload shows the same
      position. */
  lemma ToggleAgrees(p: PopupState, st: Blocklist.State, enabled: bool, parse: Parser)
    ensures var a := ToggleEnabled(p, enabled);
            var b := Background.HandleMessage(st, a.message, parse).state;
            && SyncEngine.SyncEnabled(b) == a.state.enabled
            && Init(Some(Background.HandleMessage(b, Background.GetUrls, parse).response)).value.enabled
               == a.state.enabled
  {
  }

  // ---------------------------------------------------------------------
  // The countdown label

  /** Whole hours and leftover whole minutes of a positive duration in
      milliseconds: `Math.floor(r / 3600000)` and
      `Math.floor((r % 3600000) / 60000)`. The duration lies in the minute
      the pair names. */
  function Countdown(remaining: int): (hm: (nat, nat))
    requires remaining > 0
    ensures hm.1 < 60
    ensures hm.0 * HourMs + hm.1 * MinuteMs <= remaining < hm.0 * HourMs + (hm.1 + 1) * MinuteMs
  {
    var hours := remaining / HourMs;
    var rest := remaining % HourMs;
    var minutes := rest / MinuteMs;
    assert remaining == hours * HourMs + rest;
    assert rest == minutes * MinuteMs + rest % MinuteMs;
    (hours, minutes)
  }

  /** The text shown for a countdown: `{h}h {m}m`, or `{m}m` under an hour. */
  function Label(hours: nat, minutes: nat): string {
    if hours > 0 then NatToString(hours) + "h " + NatToString(minutes) + "m"
    else NatToString(minutes) + "m"
  }

  /** `formatTimeRemaining(removalTime)` at `now`: the due text when the
      expiry has passed; otherwise a label that reads back as the countdown
      of the remaining time. */
  function FormatTimeRemaining(removalTime: int, now: int): (s: string)
    ensures removalTime - now <= 0 ==> s == ExpiringSoon
    ensures removalTime - now > 0 ==>
              DecodeLabel(s) == Some(Countdown(removalTime - now)) && s != ExpiringSoon
  {
    var remaining := removalTime - now;
    if remaining <= 0 then ExpiringSoon
    else
      var hm := Countdown(remaining);
      DecodeLabelRoundTrip(hm.0, hm.1);
      DueTextIsNoLabel();
      Label(hm.0, hm.1)
  }

  /** Position of the first `c` in `s`. */
  function IndexOf(s: string, c: char): (r: Option<nat>)
    ensures r.None? <==> c !in s
    ensures r.Some? ==> r.value < |s| && s[r.value] == c && c !in s[..r.value]
  {
    if s == [] then None
    else if s[0] == c then Some(0)
    else
      match IndexOf(s[1..], c)
      case None => None
      case Some(i) =>
        assert s[..i + 1] == [s[0]] + s[1..][..i];
        Some(i + 1)
  }

  /** Reads a countdown label back into hours and minutes; None for any
      other text. Only the form `Label` prints is accepted: digit runs
      without leading zeros, and an hour part only when it is non-zero. */
  function DecodeLabel(s: string): Option<(nat, nat)> {
    if s == [] || s[|s| - 1] != 'm' then None
    else
      var body := s[..|s| - 1];
      match IndexOf(body, 'h')
      case None =>
        if Canonical(body) then Some((0, Value(body))) else None
      case Some(i) =>
        var hs := body[..i];
        var ms := body[i + 1..];
        if Canonical(hs) && hs[0] != '0' && |ms| >= 2 && ms[0] == ' ' && Canonical(ms[1..])
        then Some((Value(hs), Value(ms[1..])))
        else None
  }

  /** Every label reads back as the hours and minutes it was made from. */
  lemma DecodeLabelRoundTrip(hours: nat, minutes: nat)
    ensures DecodeLabel(Label(hours, minutes)) == Some((hours, minutes))
  {
    var m := NatToString(minutes);
    if hours > 0 {
      HourLabelDecodes(NatToString(hours), m);
    } else {
      MinuteLabelDecodes(m);
    }
  }

  /** Only labels decode: a text that reads back as hours and minutes is
      exactly the label of those hours and minutes. */
  lemma DecodeLabelCanonical(s: string)
    requires DecodeLabel(s).Some?
    ensures s == Label(DecodeLabel(s).value.0, DecodeLabel(s).value.1)
  {
    var body := s[..|s| - 1];
    assert s == body + "m";
    var idx := IndexOf(body, 'h');
    if idx.None? {
      assert Canonical(body);
      MinuteLabelExact(body);
    } else {
      var i := idx.value;
      var hs, ms := body[..i], body[i + 1..];
      assert Canonical(hs) && hs[0] != '0' && |ms| >= 2 && ms[0] == ' ' && Canonical(ms[1..]);
      var m := ms[1..];
      assert DecodeLabel(s).value == (Value(hs), Value(m));
      assert hs == s[..i] && m == s[i + 2..|s| - 1];
      SplitAtMark(s, i);
      HourLabelExact(hs, m);
    }
  }

  lemma SplitAtMark(s: string, i: nat)
    requires i + 3 <= |s| && s[i] == 'h' && s[i + 1] == ' ' && s[|s| - 1] == 'm'
    ensures s == s[..i] + "h " + s[i + 2..|s| - 1] + "m"
  {
    assert s == s[..i] + s[i..i + 2] + s[i + 2..|s| - 1] + s[|s| - 1..];
  }

  lemma MinuteLabelExact(m: string)
    requires Canonical(m)
    ensures Label(0, Value(m)) == m + "m"
  {
    CanonicalIsRendering(m);
  }

  lemma HourLabelExact(h: string, m: string)
    requires Canonical(h) && h[0] != '0' && Canonical(m)
    ensures Label(Value(h), Value(m)) == h + "h " + m + "m"
  {
    CanonicalIsRendering(h);
    CanonicalIsRendering(m);
  }

  lemma HourLabelDecodes(h: string, m: string)
    requires Canonical(h) && h[0] != '0' && Canonical(m)
    ensures DecodeLabel(h + "h " + m + "m") == Some((Value(h), Value(m)))
  {
    var body := h + "h " + m;
    var s := body + "m";
    assert s[..|s| - 1] == body;
    var rest := " " + m;
    assert body == h + ['h'] + rest;
    DigitsLackH(h);
    IndexOfAfter(h, rest, 'h');
    assert body[..|h|] == h;
    assert body[|h| + 1..] == rest;
    assert rest[1..] == m;
  }

  lemma MinuteLabelDecodes(m: string)
    requires Canonical(m)
    ensures DecodeLabel(m + "m") == Some((0, Value(m)))
  {
    var s := m + "m";
    assert s[..|s| - 1] == m;
    DigitsLackH(m);
  }

  lemma IndexOfAfter(x: string, y: string, c: char)
    requires c !in x
    ensures IndexOf(x + [c] + y, c) == Some(|x|)
  {
    var s := x + [c] + y;
    assert s[|x|] == c;
    assert s[..|x|] == x;
    var i := IndexOf(s, c).value;
    assert i >= |x| by {
      assert s[..|x|] == x;
    }
  }

  lemma DigitsLackH(s: string)
    requires AllDigits(s)
    ensures 'h' !in s
  {
    forall k | 0 <= k < |s| ensures s[k] != 'h' {
      assert IsDigit(s[k]);
    }
  }

  /** The due text is not a countdown label. */
  lemma DueTextIsNoLabel()
    ensures DecodeLabel(ExpiringSoon) == None
  {
  }

  // ---------------------------------------------------------------------
  // The once-a-second timer

  datatype TickAction =
    | Reload                                  // some entry is due: reload from the background
    | Refresh(labels: map<string, string>)   // otherwise: new countdown text per shown entry

  /** The countdown text of every listed pattern with a (non-zero) pending
      expiry, when none is due yet. */
  function Labels(p: PopupState, now: int): (labels: map<string, string>)
    requires forall u :: u in p.pending ==> p.pending[u] > now
    ensures forall u :: u in labels <==> u in p.urls && u in p.pending && p.pending[u] != 0
    ensures forall u :: u in labels ==>
              (labels[u] != ExpiringSoon && DecodeLabel(labels[u]) == Some(Countdown(p.pending[u] - now)))
  {
    map u | u in p.pending && u in p.urls && p.pending[u] != 0 :: FormatTimeRemaining(p.pending[u], now)
  }

  /** One run of the popup's timer at `now`. It scans the pending map and
      stops at the first due entry, in which case it reloads; otherwise it
      relabels each listed pattern that has a (non-zero) pending expiry,
      and every such label is a live countdown. */
  method TimerTick(p: PopupState, now: int) returns (a: TickAction)
    ensures a.Reload? <==> exists u :: u in p.pending && p.pending[u] <= now
    ensures a.Refresh? ==>
              forall u :: u in a.labels <==> u in p.urls && u in p.pending && p.pending[u] != 0
    ensures a.Refresh? ==>
              forall u :: u in a.labels ==>
                (a.labels[u] != ExpiringSoon && DecodeLabel(a.labels[u]) == Some(Countdown(p.pending[u] - now)))
  {
    var keys := p.pending.Keys;
    var hasExpired := false;
    while keys != {} && !hasExpired
      invariant keys <= p.pending.Keys
      invariant hasExpired ==> exists u :: u in p.pending && p.pending[u] <= now
      invariant !hasExpired ==> forall u :: u in p.pending && u !in keys ==> p.pending[u] > now
      decreases keys
    {
      var url :| url in keys;
      if p.pending[url] - now <= 0 {
        hasExpired := true;
      }
      keys := keys - {url};
    }
    if hasExpired {
      a := Reload;
    } else {
      a := Refresh(Labels(p, now));
    }
  }
}

=== FILE: sync.dfy ===
/** `syncRules` of web-extension/background.js: the rule set computed from
    the stored state, and the `updateDynamicRules` request that installs it
    in place of whatever was installed before. */
module SyncEngine {
  import opened Wrappers
  import opened Url
  import opened UrlFilter
  import opened Blocklist

  /** One declarativeNetRequest dynamic rule: a redirect of main-frame
      requests matching `urlFilter` to the extension's blocked page. */
  datatype Rule = Rule(id: int, priority: int, extensionPath: string,
                       urlFilter: string, resourceTypes: seq<string>)

  /** The argument of `updateDynamicRules`. */
  datatype RuleUpdate = RuleUpdate(removeRuleIds: seq<int>, addRules: seq<Rule>)

  const BlockedPagePath := "/blocked/blocked.html?url="

  /** `syncRules` installs rules unless the flag is stored as `false`; an
      absent flag counts as enabled. */
  predicate SyncEnabled(st: State) {
    st.enabled != Some(false)
  }

  /** The rule built for the pattern at position `index`; `encode` stands
      for `encodeURIComponent`. */
  function RuleFor(parse: Parser, encode: string -> string, url: string, index: nat): Rule {
    Rule(index + 1, 1, BlockedPagePath + encode(url), BuildUrlFilter(parse, url), ["main_frame"])
  }

  /** `urls.map((url, index) => ...)`: one rule per pattern, in list order,
      numbered from 1. */
  function CompileRules(parse: Parser, encode: string -> string, urls: seq<string>): (rules: seq<Rule>)
    ensures |rules| == |urls|
    ensures forall i :: 0 <= i < |rules| ==> rules[i] == RuleFor(parse, encode, urls[i], i)
  {
    seq(|urls|, i requires 0 <= i < |urls| => RuleFor(parse, encode, urls[i], i))
  }

  /** The rules a sync leaves installed. */
  function DesiredRules(st: State, parse: Parser, encode: string -> string): seq<Rule> {
    if !SyncEnabled(st) || st.urls == [] then [] else CompileRules(parse, encode, st.urls)
  }

  function Ids(rules: seq<Rule>): (ids: seq<int>)
    ensures |ids| == |rules|
    ensures forall i :: 0 <= i < |rules| ==> ids[i] == rules[i].id
  {
    seq(|rules|, i requires 0 <= i < |rules| => rules[i].id)
  }

  /** The request `syncRules` sends given the ids currently installed: every
      existing id is removed; when disabled or empty nothing is added, and
      no request is sent at all if nothing was installed either. */
  function SyncRules(st: State, existingIds: seq<int>, parse: Parser, encode: string -> string)
    : (r: Option<RuleUpdate>)
    ensures r.None? <==> existingIds == [] && (!SyncEnabled(st) || st.urls == [])
    ensures r.Some? ==> r.value.removeRuleIds == existingIds
    ensures r.Some? ==> r.value.addRules == DesiredRules(st, parse, encode)
  {
    if !SyncEnabled(st) || st.urls == [] then
      if existingIds != [] then Some(RuleUpdate(existingIds, [])) else None
    else Some(RuleUpdate(existingIds, CompileRules(parse, encode, st.urls)))
  }

  /** The installed rules whose ids are not listed. */
  function KeepUnlisted(active: seq<Rule>, ids: seq<int>): (r: seq<Rule>)
    ensures forall x :: x in r <==> x in active && x.id !in ids
  {
    if active == [] then []
    else if active[0].id in ids then KeepUnlisted(active[1..], ids)
    else [active[0]] + KeepUnlisted(active[1..], ids)
  }

  /** The host's `updateDynamicRules`: listed ids go, new rules are added. */
  function ApplyUpdate(active: seq<Rule>, update: Option<RuleUpdate>): seq<Rule> {
    match update
    case None => active
    case Some(u) => KeepUnlisted(active, u.removeRuleIds) + u.addRules
  }

  /** Whatever was installed before, a sync leaves exactly the desired rules
      installed: it never diffs, it replaces. */
  lemma SyncReplaces(st: State, active: seq<Rule>, parse: Parser, encode: string -> string)
    ensures ApplyUpdate(active, SyncRules(st, Ids(active), parse, encode)) == DesiredRules(st, parse, encode)
  {
    var ids := Ids(active);
    assert forall i :: 0 <= i < |active| ==> active[i].id == ids[i];
    KeepNoneListed(active, ids);
  }

  /** Removing every installed id leaves nothing installed. */
  lemma {:induction false} KeepNoneListed(active: seq<Rule>, ids: seq<int>)
    requires forall i :: 0 <= i < |active| ==> active[i].id in ids
    ensures KeepUnlisted(active, ids) == []
  {
    if active != [] {
      assert active[0].id in ids;
      KeepNoneListed(active[1..], ids);
    }
  }

  /** When rules are installed there is one per pattern, rule `i` having id
      `i + 1` and the compiled filter of pattern `i`; ids are distinct. */
  lemma DesiredRulesShape(st: State, parse: Parser, encode: string -> string)
    ensures var rules := DesiredRules(st, parse, encode);
            && (rules == [] <==> !SyncEnabled(st) || st.urls == [])
            && (rules != [] ==> |rules| == |st.urls|)
            && (forall i :: 0 <= i < |rules| ==>
                  rules[i].id == i + 1 && rules[i].urlFilter == BuildUrlFilter(parse, st.urls[i]))
            && (forall i, j :: 0 <= i < j < |rules| ==> rules[i].id != rules[j].id)
  {
  }

  /** Turning blocking off and on again with the same list reinstalls the
      same rules, and an absent flag installs what `true` installs. */
  lemma ToggleRestores(st: State, parse: Parser, encode: string -> string)
    ensures DesiredRules(st.(enabled := Some(false)), parse, encode) == []
    ensures DesiredRules(st.(enabled := Some(true)), parse, encode)
            == DesiredRules(st.(enabled := None), parse, encode)
            == DesiredRules(st.(enabled := Some(true), pending := map[]), parse, encode)
  {
  }

  /** The rule set is a function of the list and whether syncing is enabled:
      the pending map and the exact flag value do not matter. */
  lemma DesiredRulesDeterministic(a: State, b: State, parse: Parser, encode: string -> string)
    requires a.urls == b.urls && SyncEnabled(a) == SyncEnabled(b)
    ensures DesiredRules(a, parse, encode) == DesiredRules(b, parse, encode)
  {
  }
}

=== FILE: url.dfy ===
/** The two components of a parsed URL the extension reads, and the scheme
    defaulting it applies before every parse.

    The URL parser itself (section 4.4 of the WHATWG URL Standard, `new URL(s)`
    in the source) is not re-implemented: every operation that parses takes it
    as a parameter `parse`, with `None` standing for the `TypeError` the
    constructor throws on a string it rejects. */
module Url {
  import opened Wrappers
  import opened JsString

  datatype Url = Url(hostname: string, pathname: string)

  type Parser = string -> Option<Url>

  /** `s.startsWith('http') ? s : `https://${s}``, the defaulting shared by
      `buildUrlFilter`, `urlMatchesRule` and `isValidUrl`: the result always
      starts with `http`, and ends with the input, which is kept unchanged
      exactly when it already starts with `http`. */
  function WithScheme(s: string): (r: string)
    ensures StartsWith(r, "http")
    ensures EndsWith(r, s)
    ensures r == s || r == "https://" + s
    ensures r == s <==> StartsWith(s, "http")
  {
    if StartsWith(s, "http") then s
    else
      assert ("https://" + s)[..4] == "http";
      "https://" + s
  }

  /** Applying the defaulting twice changes nothing more. */
  lemma WithSchemeIdempotent(s: string)
    ensures WithScheme(WithScheme(s)) == WithScheme(s)
  {
  }

  /** An input that does not begin with `h` gets `https://` in front;
      `full` is that text, written out at the call. */
  lemma SchemeAdded(s: string, full: string)
    requires s != [] && s[0] != 'h' && full == "https://" + s
    ensures WithScheme(s) == full
  {
    MismatchNotPrefix(s, "http", 0);
  }

  /** Any input that begins with the letters `http` is passed to the parser
      unprefixed, even when it is a bare host such as `httpbin.org`. */
  lemma HttpPrefixedHostKeptBare()
    ensures WithScheme("httpbin.org") == "httpbin.org"
  {
    assert "httpbin.org"[..4] == "http";
  }
}

=== FILE: wrappers.dfy ===
/** The optional-value datatype used throughout the model: a JavaScript
    `null`/`undefined`, an absent storage key, or a URL that failed to parse
    is `None`. */
module Wrappers {

  datatype Option<+T> = None | Some(value: T)
}
